=== FILE: README.md ===
# Peer-review classroom app: store, queries, rankings, forms and routes in Dafny

This project models the logic core of a small client-only React app for classroom peer review.
Teachers create projects and assign students to them. Students review their peers on a project
with a 1–5 star rating and a comment. An analytics page summarises the activity.

The model covers:

- **Store** (`store.dfy`). This is the application reducer: a total function `State × Action → State`
  over users and projects. Projects carry their own reviews and submissions. The module also has the
  action creators `login`, `logout`, `addProject`, `updateProject`, `deleteProject`, `addReview`,
  `addSubmission`, `setLoading`, `setError` and `clearError`, all as `Command`s. `Perform` runs a
  `Command` through the reducer.
- **Derived queries** (`queries.dfy`). These are `getProjectById`, `getUserById`,
  `getProjectsByUserId`, `getReviewsByUserId`, `getSubmissionsByUserId` and `getAnalytics`. Lemmas
  say how each one answers after the reducer actions that move it: `getProjectById` after
  ADD/UPDATE/DELETE_PROJECT, `getProjectsByUserId` after ADD/DELETE_PROJECT, `getReviewsByUserId`
  after ADD_REVIEW, `getSubmissionsByUserId` after ADD_SUBMISSION, `getAnalytics`'s review total
  after ADD_REVIEW, and `getUserById` after every action, none of which changes the users.
- **Analytics page** (`analytics.dfy`):
  - the project-status histogram (`Analytics`);
  - the top five students by mean rating received (`AnalyticsRankings`);
  - the five most active projects (`AnalyticsRankings`).
- **Admin dashboard form** (`admin_form.dfy`): the student checkbox toggle, the project the form
  creates, the form reset, and the list of students offered.
- **Review page** (`review_form.dfy`, with `String.prototype.trim` in `text.dfy`): the peers a student
  may review, the submission guard and payload, the star setter, the form reset, and the
  "Reviews Given" / "Reviews Received" lists.
- **Routes** (`routes.dfy`): `ProtectedRoute`, the role dispatch of `Dashboard`, and the route table.
- **A worked scenario** (`scenario.dfy`). One project has two students, and one student reviews the
  other twice, rated 4 and then 5.

Supporting modules:

- `optional.dfy`: `Option`.
- `seqs.dfy`: `Filter`, `Find`, `Sum`, `Take`, and their algebra.
- `stable_sort.dfy`: a stable insertion sort, descending by a real key. The sort's output is proved
  sorted and a permutation of its input, and every class of equal keys is proved to keep its input
  order. This is the behaviour `Array.prototype.sort` has had to guarantee since ECMAScript 2019.
- `js_object.dfy`: a JavaScript object with integer keys.
  - Assignment overwrites an existing key in place, or appends a new key.
  - `Object.values` visits the array-index keys (integers from 0 to 2^32 − 2) in ascending numeric
    order, and then every other key in insertion order.

Clock readings are parameters of the store operations:

- `Date.now()` becomes `now`;
- `new Date().toISOString()` becomes `stamp`.

Ids are `int` throughout.

## Behaviour worth knowing

- **Ties among top performers.** A natural reading of the analytics page is that students with equal
  averages keep the order of the user list. The code does not do that. It first collects the stats
  into an object keyed by student id (src/pages/AnalyticsPage.jsx:36). `Object.values` then lists
  array-index keys in ascending numeric order. So, for ids from 0 to 2^32 − 2, ties come out in
  ascending id order, whatever the user order. Larger or negative ids are not array indexes; they
  follow the array-index ones in the order the students were first seen. The model follows the
  code. `AnalyticsRankings.TiesInIdOrder` proves this order.
- **Duplicate student ids.** If two students share an id, they collapse into one entry. The later
  user's name overwrites the earlier one; the stats are the same because they are computed from the
  id.
- **Duplicate project ids.** Project ids come from `Date.now()`, so two projects may share an id.
  - `UPDATE_PROJECT`, `DELETE_PROJECT`, `ADD_REVIEW` and `ADD_SUBMISSION` act on *every* project with
    the given id, not on exactly one.
  - `getProjectById` returns the first match.
  - The lemmas are stated for all matches. `Queries.AddReviewRaisesTotal` assumes exactly one match,
    because with k matches the review total grows by k (`Queries.AddReviewCount`).
- **Absent status counts.** `getProjectStats` always reports `active`, `upcoming` and `completed`,
  even at zero. It also reports any other status a project carries. The page reads only the three
  known counts, so the order of the keys is not observable.

## Model

| member | source | states |
|---|---|---|
| `Store.Reduce` | src/context/AppContext.jsx:33-116 | Users, reviews and submissions are never rewritten. SET_USER, SET_PROJECTS, SET_LOADING, SET_ERROR and CLEAR_ERROR each change only their own field, and CLEAR_ERROR sets the error to absent. SET_USERS, UPDATE_REVIEW and unknown kinds return the state unchanged. The project actions keep the length (update, add review, add submission), grow it by one (add) or never grow it (delete). |
| `Store.UpdateWhere` | src/context/AppContext.jsx:56-58 | Same length. Every project with the id is rewritten, and every other project is kept in place. |
| `Store.NewProject` | src/context/AppContext.jsx:162-169 | The stored project has the clock's id and empty review and submission lists, whatever the caller supplied. Every other field is the caller's. |
| `Store.NewReview` | src/context/AppContext.jsx:180-185 | The stored review keeps the draft's reviewer, reviewee, rating and comment, and takes its id and timestamp from the clock. |
| `Store.NewSubmission` | src/context/AppContext.jsx:192-197 | The stored submission keeps the draft's student and content, and takes its id and timestamp from the clock. |
| `Store.ToAction` | src/context/AppContext.jsx:152-214 | Each operation dispatches its action with the caller's payload. `login` sets the user and `logout` clears it. `addProject` sends `NewProject` of the caller's fields, and `addReview` and `addSubmission` send `NewReview` / `NewSubmission` of the caller's draft, with the clock's id (and timestamp) and the target project id. `updateProject`, `deleteProject`, `setLoading`, `setError` and `clearError` pass their argument through unchanged. |
| `Store.AddProjectAppends` | src/context/AppContext.jsx:47-51 | ADD_PROJECT grows the list by one. Earlier projects are unchanged and in order, and the payload is last. |
| `Store.AddProjectStartsEmpty` | src/context/AppContext.jsx:162-169 | `addProject` stores, at the end, a project with the clock's id, no reviews and no submissions, and the caller's title, status and assigned students. |
| `Store.UpdateProjectReplaces` | src/context/AppContext.jsx:53-59 | UPDATE_PROJECT keeps length and order. It replaces every project whose id equals the payload's with the payload, and leaves the others identical. |
| `Store.UpdateUnknownIsNoop` | src/context/AppContext.jsx:53-59 | UPDATE_PROJECT with an id no project has leaves the state unchanged. |
| `Store.UpdateIdempotent` | src/context/AppContext.jsx:53-59 | Applying the same UPDATE_PROJECT twice gives the same state as applying it once. |
| `Store.DeleteProjectRemoves` | src/context/AppContext.jsx:61-65 | DELETE_PROJECT keeps exactly the projects with another id, with their nested lists unchanged and in order. The removed count is the number of matching projects. |
| `Store.DeleteUnknownIsNoop` | src/context/AppContext.jsx:61-65 | DELETE_PROJECT with an id no project has leaves the state unchanged. |
| `Store.AddReviewAppends` | src/context/AppContext.jsx:67-79 | ADD_REVIEW appends the review to the end of each matching project's reviews. Earlier reviews and the project's other fields are unchanged, and all other projects are identical. |
| `Store.AddReviewUnknownIsNoop` | src/context/AppContext.jsx:67-79 | ADD_REVIEW for an unknown project id leaves the state unchanged. |
| `Store.AddSubmissionAppends` | src/context/AppContext.jsx:81-93 | ADD_SUBMISSION is the same append-only update, on the submissions list. |
| `Store.AddSubmissionUnknownIsNoop` | src/context/AppContext.jsx:81-93 | ADD_SUBMISSION for an unknown project id leaves the state unchanged. |
| `Queries.GetProjectById` | src/context/AppContext.jsx:218-220 | Absent iff no project has the id. Otherwise it is a project with that id, at the first index that has it. |
| `Queries.GetUserById` | src/context/AppContext.jsx:222-224 | Absent iff no user has the id. Otherwise it is a user with that id, at the first index that has it. |
| `Queries.GetProjectsByUserId` | src/context/AppContext.jsx:226-230 | Exactly the projects whose assigned students include the user. |
| `Queries.ProjectsByUserIdOrder` | src/context/AppContext.jsx:226-230 | The assigned projects keep their store order. |
| `Queries.GetReviewsByUserId` | src/context/AppContext.jsx:232-245 | Exactly the reviews the user wrote or received, each tagged with the project that holds it. |
| `Queries.ReviewsByUserIdOrder` | src/context/AppContext.jsx:232-245 | The list runs project by project in store order, and within a project in review order. |
| `Queries.GetSubmissionsByUserId` | src/context/AppContext.jsx:247-260 | Exactly the user's submissions, each tagged with the project that holds it. |
| `Queries.SubmissionsByUserIdOrder` | src/context/AppContext.jsx:247-260 | The list runs project by project in store order, and within a project in submission order. |
| `Queries.AllReviews` | src/context/AppContext.jsx:267-270 | Every review of every project is present, and its length is the sum of the projects' review counts. |
| `Queries.RoundToTenth` | src/context/AppContext.jsx:281 | The result is a whole number of tenths within 0.05 of the input, with halves rounding upward. |
| `Queries.GetAnalytics` | src/context/AppContext.jsx:262-283 | `totalProjects` is the project count. `activeProjects` is the number of projects with status `active`, which is at most the total. `totalStudents` is the number of users with the student role. `totalReviews` sums the review counts. `averageRating` is 0 with no reviews, and otherwise the mean of all ratings rounded to a tenth. |
| `Queries.AverageRatingInRange` | src/context/AppContext.jsx:272-281 | When every rating lies in 1..5 and there is a review, the rounded average lies in 1..5. |
| `Queries.AddProjectThenFind` | src/context/AppContext.jsx:218-220 | After ADD_PROJECT with a fresh id, `getProjectById` finds the new project. |
| `Queries.AddProjectKeepsEarlierMatch` | src/context/AppContext.jsx:218-220 | ADD_PROJECT never changes what `getProjectById` finds for an id that already existed. |
| `Queries.UpdateThenFind` | src/context/AppContext.jsx:53-59 | After UPDATE_PROJECT of an existing id, `getProjectById` finds the payload. |
| `Queries.DeleteThenFind` | src/context/AppContext.jsx:61-65 | After DELETE_PROJECT, `getProjectById` finds nothing for that id. |
| `Queries.ReduceKeepsUserLookup` | src/context/AppContext.jsx:222-224 | No action changes the users list, so `getUserById` gives the same answer for every id after any action. |
| `Queries.AddProjectThenProjectsByUser` | src/context/AppContext.jsx:226-230 | After ADD_PROJECT, a user's project list is the old one with the new project appended when the user is assigned to it, and unchanged otherwise. |
| `Queries.DeleteThenProjectsByUser` | src/context/AppContext.jsx:226-230 | After DELETE_PROJECT, a user's project list is the old one without the projects carrying the deleted id, in the same order. |
| `Queries.AddReviewThenReviewsByUser` | src/context/AppContext.jsx:232-245 | With one project carrying the id, after ADD_REVIEW a user's list is unchanged before and after that project. The project's entries are retagged with the updated project, and the new review follows them iff the user wrote or received it. |
| `Queries.AddSubmissionThenSubmissionsByUser` | src/context/AppContext.jsx:247-260 | With one project carrying the id, after ADD_SUBMISSION a user's list is unchanged before and after that project. The project's entries are retagged with the updated project, and the new submission follows them iff the user made it. |
| `Queries.AddReviewCount` | src/context/AppContext.jsx:67-79 | ADD_REVIEW raises the total review count by the number of projects that carry the target id. |
| `Queries.AddReviewRaisesTotal` | src/context/AppContext.jsx:180-190 | With exactly one matching project, `addReview` raises `getAnalytics().totalReviews` by one. |
| `Analytics.Bump` | src/pages/AnalyticsPage.jsx:16 | Counting a status raises its count by one, or creates it at 1 at the end. Every other count is unchanged, the total grows by one, and keys stay distinct. |
| `Analytics.InitialStatsCounts` | src/pages/AnalyticsPage.jsx:9-13 | The initial object has `active`, `upcoming` and `completed` at 0 and no other key. |
| `Analytics.GetProjectStats` | src/pages/AnalyticsPage.jsx:8-20 | The keys are distinct. The first three are `active`, `upcoming` and `completed`. A key is present iff it is one of those or some project has it. Each count is the number of projects with that status, and the counts sum to the project count. |
| `AnalyticsRankings.ReceivedRatingsAreAllReviewsOf` | src/pages/AnalyticsPage.jsx:26-33 | The ratings gathered for a student are those of all reviews, across all projects, naming the student as reviewee, in order. |
| `AnalyticsRankings.StudentStats` | src/pages/AnalyticsPage.jsx:25-42 | Keys are distinct. Every entry belongs to a student with that id and name. Every entry has at least one rating, `totalReviews` equal to the number of ratings received, and `averageRating` equal to their mean. |
| `AnalyticsRankings.StudentStatsCovers` | src/pages/AnalyticsPage.jsx:35-41 | Every student with at least one rating received has an entry. |
| `AnalyticsRankings.RankStudents` | src/pages/AnalyticsPage.jsx:44-45 | The full ranking is sorted non-increasing by average and holds exactly the entries of the stats object. |
| `AnalyticsRankings.GetTopPerformers` | src/pages/AnalyticsPage.jsx:22-47 | At most 5 entries, forming a prefix of the ranking (the whole ranking when shorter than 5). The result is sorted non-increasing. Each entry is a user with the student role and at least one review, and its count and mean are correct. |
| `AnalyticsRankings.RankingCoversStudents` | src/pages/AnalyticsPage.jsx:25-45 | Each student with a review appears in the ranking exactly once. |
| `AnalyticsRankings.TopPerformersAreBest` | src/pages/AnalyticsPage.jsx:44-46 | A reviewed student who is left out faces a full list of 5, each rated at least as high. |
| `AnalyticsRankings.TiesInIdOrder` | src/pages/AnalyticsPage.jsx:36-45 | When every student id is an array index, students with equal averages appear in ascending id order. |
| `AnalyticsRankings.WithActivity` | src/pages/AnalyticsPage.jsx:51-54 | The project is carried unchanged, and its activity is its review count plus its submission count. |
| `AnalyticsRankings.WithActivities` | src/pages/AnalyticsPage.jsx:50-54 | Each project, in order, paired with its review count plus submission count. |
| `AnalyticsRankings.RankProjects` | src/pages/AnalyticsPage.jsx:55 | The projects with activity, as a permutation sorted non-increasing by activity. |
| `AnalyticsRankings.RankProjectsKeepsTies` | src/pages/AnalyticsPage.jsx:55 | Projects with equal activity keep their store order. |
| `AnalyticsRankings.GetMostActiveProjects` | src/pages/AnalyticsPage.jsx:49-57 | Length is min(project count, 5), forming a prefix of the ranking, sorted non-increasing. Every entry comes from the input and has the correct activity. |
| `AnalyticsRankings.MostActiveAreMostActive` | src/pages/AnalyticsPage.jsx:55-56 | A project left out is no more active than any project shown. |
| `JsObject.Put` | src/pages/AnalyticsPage.jsx:36-40 | After the assignment the entry is present. Entries under other keys are kept, nothing else is added, and keys stay distinct. A new key is appended last; an existing key is overwritten in place, at its first position. |
| `JsObject.Enumerate` | src/pages/AnalyticsPage.jsx:44 | `Object.values` lists exactly the object's entries, each once (same length). The entries whose key is not an array index come after the others, in insertion order. |
| `JsObject.EnumerateAscending` | src/pages/AnalyticsPage.jsx:44 | When every key is an array index, `Object.values` lists entries in ascending key order. |
| `StableSort.Sort` | src/pages/AnalyticsPage.jsx:45 | The output is sorted non-increasing by the key, is a permutation of the input, and has the same length. |
| `StableSort.SortStable` | src/pages/AnalyticsPage.jsx:45 | Elements with equal keys keep their input order. |
| `AdminForm.Students` | src/pages/AdminDashboard.jsx:39 | Exactly the users whose role is student. |
| `AdminForm.StudentsAppend` | src/pages/AdminDashboard.jsx:39 | A user added at the end joins the end of the list iff their role is student, and the list is otherwise unchanged; with the empty list giving no students, this fixes the list's order and multiplicities. |
| `AdminForm.Toggle` | src/pages/AdminDashboard.jsx:30-37 | The id is in the result iff it was not in the list. A present id has every occurrence removed, and an absent id is appended at the end. Other ids keep their membership and relative order. |
| `AdminForm.ToggleAbsentTwice` | src/pages/AdminDashboard.jsx:33-35 | Toggling an absent id twice gives back the original list. |
| `AdminForm.TogglePresentTwice` | src/pages/AdminDashboard.jsx:33-35 | Toggling a present id twice yields the same set, with the id moved to the end. |
| `AdminForm.ToggleKeepsNoDuplicates` | src/pages/AdminDashboard.jsx:33-35 | A duplicate-free list stays duplicate-free. |
| `AdminForm.FormFields` | src/pages/AdminDashboard.jsx:16-20 | The created project is `active`, carries the form's title, description and due date, and has the selected students in order. |
| `AdminForm.HandleAddProject` | src/pages/AdminDashboard.jsx:14-28 | Once the submit handler runs, it calls `addProject` on the form's fields, then leaves the form empty and hidden. |
| `AdminForm.AddProjectFromForm` | src/pages/AdminDashboard.jsx:14-28 | The store gains, at the end, an active project with the form's fields, the selected students in order, no reviews or submissions, and the clock's id. The form comes back empty and hidden. |
| `ReviewForm.Peers` | src/pages/ReviewPage.jsx:14 | Empty when the project is missing. Otherwise exactly the assigned students other than the current user, and never the user. |
| `ReviewForm.PeersAppend` | src/pages/ReviewPage.jsx:14 | `peers` keeps the assigned students' order: a student added at the end of the project's list is added at the end of the peers, unless they are the current user. |
| `ReviewForm.PeersOfOutsider` | src/pages/ReviewPage.jsx:14 | A user not assigned to the project, or no user, sees every assigned student, in order. |
| `ReviewForm.HandleSubmit` | src/pages/ReviewPage.jsx:16-30 | A review is sent iff a peer is chosen, the rating is positive and the trimmed comment is non-empty. The review carries the user as reviewer, the peer, the rating and the trimmed comment. After sending, the form resets to no peer, 0, an empty comment and hidden; otherwise nothing changes. |
| `ReviewForm.Step` | src/pages/ReviewPage.jsx:32-126 | While the form is hidden, every event except opening it changes nothing. Opening shows the form and keeps everything entered. On the shown form, Cancel hides it, choosing a peer or editing the comment sets that field, and clicking star i sets the rating to i + 1, in 1..5. Submit on the shown form does exactly what `handleSubmitReview` does, and no other event sends a review. |
| `ReviewForm.StepKeepsFormOk` | src/pages/ReviewPage.jsx:32-43 | Every page event keeps the rating in 0..5 and the chosen peer among the offered ones. A review sent by an event is well formed. |
| `ReviewForm.Run` | src/pages/ReviewPage.jsx:16-43 | Over any sequence of events the form invariant holds. Every review sent names the user, the project and an offered peer, rates 1..5, and carries a non-empty trimmed comment. |
| `ReviewForm.SubmittedReviewsAreWellFormed` | src/pages/ReviewPage.jsx:14-43 | From a fresh page, every review sent reviews a peer other than the user, who is assigned to the project, with a rating in 1..5 and a non-empty trimmed comment. |
| `ReviewForm.ReviewsGiven` | src/pages/ReviewPage.jsx:136-140 | Exactly this project's reviews written by the user, in order; nothing without a user. |
| `ReviewForm.ReviewsReceived` | src/pages/ReviewPage.jsx:167-171 | Exactly this project's reviews about the user, in order; nothing without a user. |
| `ReviewForm.ListsAfterAppend` | src/pages/ReviewPage.jsx:136-171 | Appending a review to a project appends it to the given list iff the user wrote it, and to the received list iff it is about the user. |
| `ReviewForm.SubmissionShowsInLists` | src/pages/ReviewPage.jsx:16-30 | After a submitted review reaches the store, the author's given list and the peer's received list each end with it. |
| `Text.Trim` | src/pages/ReviewPage.jsx:18-23 | Only white space is removed, and only from the two ends. The result is empty iff the input is all white space. |
| `Text.TrimIdempotent` | src/pages/ReviewPage.jsx:18-23 | Trimming a trimmed comment changes nothing. |
| `Routes.ProtectedRoute` | src/App.jsx:14-26 | No user redirects to /login. A required role that differs from the user's redirects to /dashboard. Otherwise the children render. |
| `Routes.Dashboard` | src/App.jsx:29-41 | No user redirects to /login. A `teacher` gets the admin dashboard, and any other role gets the student dashboard. |
| `Routes.Route` | src/App.jsx:53-88 | A path renders iff the user meets its rule: /login logged out; /dashboard and /reviews/:id logged in; /admin and /analytics as teacher; /review/:id as student. A rendered path shows its own page, and /dashboard shows the admin view to teachers and the student view otherwise. "/" goes to /dashboard with a user and to /login without one, and "*" goes to /dashboard. Every redirect goes to /login or /dashboard, and to /login only without a user. Without a user, every path other than /login and "*" redirects to /login. |
| `Routes.LoggedOutSeesOnlyLogin` | src/App.jsx:53-88 | Without a user, /login is the only path that renders a page, and it renders the login page. |
| `Routes.RedirectsSettle` | src/App.jsx:53-88 | From any path, following redirects renders a page within two hops. |
| `Scenario.TwoReviewsOfOnePeer` | src/context/AppContext.jsx:232-283 | Two `addReview`s of one student rated 4 then 5 have the effects below. `getReviewsByUserId` returns both reviews, tagged with the same project, in submission order. `totalReviews` is 2 and `averageRating` is 4.5. |

## Left out

- Persistence. Loading from and saving to `localStorage`, and `JSON.parse`/`JSON.stringify`, are browser I/O (src/context/AppContext.jsx:126-149, 159). The store's state is the model's state.
- The clock. `Date.now()` ids and `toISOString()` timestamps are the caller's `now` and `stamp` parameters.
- Number/string conversions. `parseInt` of route parameters and form values, and the toggle's `toString` (src/pages/AdminDashboard.jsx:33-35, src/pages/ReviewPage.jsx:13, 19-21), are left out. Ids are `int` everywhere, so the toggle list holds ints and the "empty" peer choice is `None`.
- Float formatting. `toFixed(1)` and the percentage bar widths on the analytics page are rendering only.
- Queries.RoundToTenth: works over exact reals, not IEEE doubles, so binary rounding error in `x * 10` is not modelled.
- Queries.GetAnalytics: `averageRating` is the exact mean rounded to a tenth, not the double the source computes.
- AnalyticsRankings.StudentStats: `averageRating` is the exact mean over reals, not a double.
- Analytics.GetProjectStats: the key order of the `stats` object is not modelled faithfully. The model keeps keys in first-seen order, but a JavaScript object lists array-index keys first, so a status such as `"2"` would come before `active`. The page reads only `active`, `upcoming` and `completed` by name (src/pages/AnalyticsPage.jsx:112-157), so nothing depends on the order.
- Analytics.Bump: a status named like an inherited `Object.prototype` property (for example `constructor`) is treated as absent. In the source, `stats[status] || 0` would read the inherited value instead.
- JsObject.Enumerate: covers integer keys only, because student ids are `int`. Non-integer string keys never arise in the model.
- Store.Reduce: the `SET_ERROR` payload is `Option<string>`. The source accepts any value.
- ReviewForm.HandleSubmit: takes the current user as present. The source reads `user.id` unguarded, and the route table (`Routes.Route`) renders this page only for a logged-in user (of any role, on `/reviews/:projectId`).
- AdminForm.HandleAddProject: the browser's `required` check on the title, description and due-date inputs (src/pages/AdminDashboard.jsx:67, 77, 88) is not modelled. The browser runs the handler only when all three are non-empty, so the model also covers submissions the page never makes; and since `required` rejects only empty values, a whitespace-only title or description still gets through in the source as in the model.
- AdminForm.FormFields: the object passed to `addProject` has no `id`, `reviews` or `submissions` in the source. The model fills those slots with 0 and empty lists, which `addProject` always overwrites (`Store.NewProject`).
- React and router mechanics: hooks, context, JSX rendering, `<Navigate replace>` history handling, and the `Navbar` shown only to logged-in users. Only the decision functions are modelled.
- Presentational pages and components: the login page, student dashboard, navbar and footer. Their logic is one-line filters that repeat the store queries above.
- Seed data: the bundled users and projects files are not part of this model, so the initial state is left open.
- Text.Trim: works on Unicode scalar values, so strings holding a lone UTF-16 surrogate are outside the model; `trim` never removes such a unit.
- Contact details and avatars of users: no decision depends on them.
- `Queries.Tagged`: stands for the source's `{...review, project}`. It keeps the item and its project as two fields instead of spreading the item.

=== FILE: admin_form.dfy ===
/**
 * The teacher's project form: the student checkboxes, the project it creates, and the
 * form reset afterwards.
 */
module AdminForm {
  import opened Seqs
  import opened Entities
  import opened Store

  /** `newProject` while being edited: the selected student ids in click order. */
  datatype ProjectForm = ProjectForm(title: string, description: string, dueDate: string, assignedStudents: seq<int>)

  /** The page's form state: the fields and whether the form is shown. */
  datatype AdminPage = AdminPage(form: ProjectForm, showAddForm: bool)

  const EmptyForm: ProjectForm := ProjectForm("", "", "", [])

  /** The students offered as checkboxes: exactly the users whose role is student, in order. */
  function Students(users: seq<User>): (r: seq<User>)
    ensures forall u :: u in r <==> u in users && u.role == StudentRole
    ensures |r| <= |users|
    ensures users == [] ==> r == []
  {
    Filter(users, IsStudent)
  }

  /**
   * Adding a user at the end adds it at the end of the list iff it is a student: with the
   * empty case above, this fixes the list's order and multiplicities.
   */
  lemma StudentsAppend(users: seq<User>, u: User)
    ensures Students(users + [u]) == Students(users) + (if u.role == StudentRole then [u] else [])
  {
    FilterSnoc(users, u, IsStudent);
  }

  function Other(id: int): int -> bool {
    (x: int) => x != id
  }

  /** `handleStudentToggle`: remove every occurrence of a present id, or append an absent one. */
  function Toggle(ids: seq<int>, id: int): (r: seq<int>)
    ensures id in r <==> id !in ids
    ensures Filter(r, Other(id)) == Filter(ids, Other(id))
    ensures forall x :: x != id ==> (x in r <==> x in ids)
    ensures id !in ids ==> r == ids + [id]
  {
    if id in ids then
      var r := Filter(ids, Other(id));
      FilterKeepsAll(r, Other(id));
      r
    else
      FilterSnoc(ids, id, Other(id));
      ids + [id]
  }

  /** Toggling an absent id twice gives back the original list. */
  lemma ToggleAbsentTwice(ids: seq<int>, id: int)
    requires id !in ids
    ensures Toggle(Toggle(ids, id), id) == ids
  {
    FilterSnoc(ids, id, Other(id));
    FilterKeepsAll(ids, Other(id));
  }

  /** Toggling a present id twice gives back the same set of ids, with the id moved last. */
  lemma TogglePresentTwice(ids: seq<int>, id: int)
    requires id in ids
    ensures forall x :: x in Toggle(Toggle(ids, id), id) <==> x in ids
    ensures Toggle(Toggle(ids, id), id) == Filter(ids, Other(id)) + [id]
  {
  }

  lemma {:induction false} FilterKeepsNoDuplicates(s: seq<int>, keep: int -> bool)
    requires NoDuplicates(s)
    ensures NoDuplicates(Filter(s, keep))
  {
    if s != [] {
      FilterKeepsNoDuplicates(s[1..], keep);
      assert s[0] !in s[1..];
    }
  }

  /** A list without repeats stays without repeats. */
  lemma ToggleKeepsNoDuplicates(ids: seq<int>, id: int)
    requires NoDuplicates(ids)
    ensures NoDuplicates(Toggle(ids, id))
  {
    if id in ids {
      FilterKeepsNoDuplicates(ids, Other(id));
    }
  }

  /**
   * The object `handleAddProject` passes to `addProject`. It has no id and no lists; the
   * model fills those slots with 0 and empty lists, which `addProject` overwrites.
   */
  function FormFields(form: ProjectForm): (p: Project)
    ensures p.status == ActiveStatus
    ensures p.assignedStudents == form.assignedStudents
    ensures p.title == form.title && p.description == form.description && p.dueDate == form.dueDate
  {
    Project(0, form.title, form.description, form.dueDate, ActiveStatus, form.assignedStudents, [], [])
  }

  /** `handleAddProject`: the store operation it runs and the page state it leaves. */
  function HandleAddProject(page: AdminPage): (r: (Command, AdminPage))
    ensures r.0.AddProjectCmd? && r.0.fields == FormFields(page.form)
    ensures r.1 == AdminPage(EmptyForm, false)
  {
    (AddProjectCmd(FormFields(page.form)), AdminPage(EmptyForm, false))
  }

  /**
   * Submitting the form stores, at the end of the project list, an active project with the
   * selected students in order, empty review and submission lists and the clock's id;
   * the form comes back empty and hidden.
   */
  lemma AddProjectFromForm(s: State, page: AdminPage, now: int, stamp: string)
    ensures var (cmd, after) := HandleAddProject(page);
      var r := Perform(s, cmd, now, stamp);
      && after.form == ProjectForm("", "", "", []) && !after.showAddForm
      && r.projects[..|s.projects|] == s.projects
      && r.projects[|s.projects|] == Project(now, page.form.title, page.form.description, page.form.dueDate,
                                             ActiveStatus, page.form.assignedStudents, [], [])
  {
    AddProjectStartsEmpty(s, FormFields(page.form), now, stamp);
  }
}

=== FILE: analytics.dfy ===
/**
 * The analytics page's rankings: a histogram of project statuses, the five students with
 * the best mean rating received, and the five projects with the most reviews plus
 * submissions.
 */
module Analytics {
  import opened Optional
  import opened Seqs
  import opened Entities

  // ---------------------------------------------------------------------------
  // getProjectStats

  /** One property of the `stats` object: a status and how many projects have it. */
  datatype StatusCount = StatusCount(status: string, count: nat)

  /** `{ active: 0, upcoming: 0, completed: 0 }`. */
  const InitialStats: seq<StatusCount> :=
    [StatusCount(ActiveStatus, 0), StatusCount(UpcomingStatus, 0), StatusCount(CompletedStatus, 0)]

  /** `stats[status]`, absent when the object has no such property. */
  function CountOf(stats: seq<StatusCount>, status: string): Option<nat> {
    if stats == [] then None
    else if stats[0].status == status then Some(stats[0].count)
    else CountOf(stats[1..], status)
  }

  /** The sum of all counts in the object. */
  function Total(stats: seq<StatusCount>): nat {
    if stats == [] then 0 else stats[0].count + Total(stats[1..])
  }

  predicate DistinctStatuses(stats: seq<StatusCount>) {
    forall i, j :: 0 <= i < j < |stats| ==> stats[i].status != stats[j].status
  }

  /** `stats[status] = (stats[status] || 0) + 1`. */
  function Bump(stats: seq<StatusCount>, status: string): (r: seq<StatusCount>)
    ensures CountOf(r, status) == Some(CountOf(stats, status).GetOr(0) + 1)
    ensures forall k :: k != status ==> CountOf(r, k) == CountOf(stats, k)
    ensures Total(r) == Total(stats) + 1
    ensures |stats| <= |r| && forall i :: 0 <= i < |stats| ==> r[i].status == stats[i].status
    ensures forall i :: |stats| <= i < |r| ==> r[i].status == status
    ensures DistinctStatuses(stats) ==> DistinctStatuses(r)
  {
    if stats == [] then [StatusCount(status, 1)]
    else if stats[0].status == status then [StatusCount(status, stats[0].count + 1)] + stats[1..]
    else
      var t := Bump(stats[1..], status);
      assert DistinctStatuses(stats) ==> forall i :: 0 <= i < |t| ==> t[i].status != stats[0].status by {
        if DistinctStatuses(stats) {
          forall i | 0 <= i < |t| ensures t[i].status != stats[0].status {
            if i < |stats[1..]| {
              assert t[i].status == stats[i + 1].status;
            }
          }
        }
      }
      [stats[0]] + t
  }

  /** The initial object has the three known statuses, each with count zero. */
  lemma InitialStatsCounts()
    ensures Total(InitialStats) == 0
    ensures DistinctStatuses(InitialStats)
    ensures forall k :: CountOf(InitialStats, k) == if k == ActiveStatus || k == UpcomingStatus || k == CompletedStatus then Some(0) else None
  {
    var s := InitialStats;
    var s1 := [StatusCount(UpcomingStatus, 0), StatusCount(CompletedStatus, 0)];
    var s2 := [StatusCount(CompletedStatus, 0)];
    assert s[1..] == s1 && s1[1..] == s2 && s2[1..] == [];
    assert Total(s2) == 0 && Total(s1) == 0;
    forall k ensures CountOf(s, k) == if k == ActiveStatus || k == UpcomingStatus || k == CompletedStatus then Some(0) else None {
      assert CountOf(s2, k) == if k == CompletedStatus then Some(0) else None;
      assert CountOf(s1, k) == if k == UpcomingStatus || k == CompletedStatus then Some(0) else None;
    }
  }

  /** `getProjectStats`: one pass over the projects in order. */
  function GetProjectStats(ps: seq<Project>): (r: seq<StatusCount>)
    ensures DistinctStatuses(r)
    ensures Total(r) == |ps|
    ensures |r| >= 3 && r[0].status == ActiveStatus && r[1].status == UpcomingStatus && r[2].status == CompletedStatus
    ensures forall k :: CountOf(r, k).Some? <==> k == ActiveStatus || k == UpcomingStatus || k == CompletedStatus || exists q :: q in ps && q.status == k
    ensures forall k :: CountOf(r, k).Some? ==> CountOf(r, k).value == |Filter(ps, HasStatus(k))|
  {
    if ps == [] then
      InitialStatsCounts();
      InitialStats
    else
      var front := ps[..|ps| - 1];
      var last := ps[|ps| - 1];
      assert ps == front + [last];
      var r := Bump(GetProjectStats(front), last.status);
      forall k ensures |Filter(ps, HasStatus(k))| == |Filter(front, HasStatus(k))| + (if last.status == k then 1 else 0) {
        FilterSnoc(front, last, HasStatus(k));
      }
      assert forall q :: q in ps <==> q in front || q == last;
      forall k | CountOf(GetProjectStats(front), k).None? ensures |Filter(front, HasStatus(k))| == 0 {
        FilterKeepsNone(front, HasStatus(k));
      }
      r
  }
}

module AnalyticsRankings {
  import opened Seqs
  import opened StableSort
  import opened JsObject
  import opened Entities
  import opened Queries

  /** How many entries each ranking shows (`slice(0, 5)`). */
  const Shown: nat := 5

  // ---------------------------------------------------------------------------
  // getTopPerformers

  function RevieweeIs(id: int): Review -> bool {
    (rv: Review) => rv.revieweeId == id
  }

  /** The ratings a student received, gathered project by project as the nested loops do. */
  function ReceivedRatings(ps: seq<Project>, id: int): seq<int> {
    if ps == [] then []
    else Ratings(Filter(ps[0].reviews, RevieweeIs(id))) + ReceivedRatings(ps[1..], id)
  }

  lemma RatingsConcat(a: seq<Review>, b: seq<Review>)
    ensures Ratings(a + b) == Ratings(a) + Ratings(b)
  {
  }

  /** The gathered ratings are those of all reviews, across all projects, naming the student as reviewee. */
  lemma {:induction false} ReceivedRatingsAreAllReviewsOf(ps: seq<Project>, id: int)
    ensures ReceivedRatings(ps, id) == Ratings(Filter(AllReviews(ps), RevieweeIs(id)))
  {
    if ps != [] {
      ReceivedRatingsAreAllReviewsOf(ps[1..], id);
      FilterConcat(ps[0].reviews, AllReviews(ps[1..]), RevieweeIs(id));
      RatingsConcat(Filter(ps[0].reviews, RevieweeIs(id)), Filter(AllReviews(ps[1..]), RevieweeIs(id)));
    }
  }

  /** One value of `studentStats`. */
  datatype PerformerStats = PerformerStats(name: string, averageRating: real, totalReviews: nat)

  /** What the page records for one student with at least one rating. */
  predicate StatsMatch(ps: seq<Project>, id: int, v: PerformerStats) {
    var xs := ReceivedRatings(ps, id);
    |xs| > 0 && v.totalReviews == |xs| && v.averageRating == Mean(xs)
  }

  /** The entry's name is that of one of the `users` with the entry's id. */
  predicate NamedBy(users: seq<User>, e: Entry<PerformerStats>) {
    exists u :: u in users && u.id == e.key && u.name == e.value.name
  }

  /**
   * `studentStats`, built by visiting the students in order and storing an entry under the
   * student's id when they received at least one rating.
   */
  function StudentStats(students: seq<User>, ps: seq<Project>): (obj: seq<Entry<PerformerStats>>)
    ensures DistinctKeys(obj)
    ensures forall e :: e in obj ==> StatsMatch(ps, e.key, e.value) && NamedBy(students, e)
  {
    if students == [] then []
    else
      var front := students[..|students| - 1];
      var u := students[|students| - 1];
      var obj := StudentStats(front, ps);
      var xs := ReceivedRatings(ps, u.id);
      if |xs| > 0 then
        var v := PerformerStats(u.name, Mean(xs), |xs|);
        assert NamedBy(students, Entry(u.id, v));
        assert forall e :: e in obj ==> NamedBy(students, e) by {
          forall e | e in obj ensures NamedBy(students, e) {
            var w :| w in front && w.id == e.key && w.name == e.value.name;
            assert w in students;
          }
        }
        Put(obj, u.id, v)
      else
        assert forall e :: e in obj ==> NamedBy(students, e) by {
          forall e | e in obj ensures NamedBy(students, e) {
            var w :| w in front && w.id == e.key && w.name == e.value.name;
            assert w in students;
          }
        }
        obj
  }

  /** Every student with at least one rating has an entry. */
  lemma {:induction false} StudentStatsCovers(students: seq<User>, ps: seq<Project>, u: User)
    requires u in students && |ReceivedRatings(ps, u.id)| > 0
    ensures exists e :: e in StudentStats(students, ps) && e.key == u.id
  {
    var front := students[..|students| - 1];
    var last := students[|students| - 1];
    var obj := StudentStats(front, ps);
    var xs := ReceivedRatings(ps, last.id);
    assert students == front + [last];
    if u != last {
      assert u in front;
      StudentStatsCovers(front, ps, u);
      var e :| e in obj && e.key == u.id;
      if |xs| > 0 && last.id != u.id {
        assert e in StudentStats(students, ps);
      } else if |xs| > 0 {
        assert Entry(last.id, PerformerStats(last.name, Mean(xs), |xs|)) in StudentStats(students, ps);
      }
    } else {
      assert Entry(last.id, PerformerStats(last.name, Mean(xs), |xs|)) in StudentStats(students, ps);
    }
  }

  /** The sort key `averageRating`. */
  function AverageOf(): Entry<PerformerStats> -> real {
    (e: Entry<PerformerStats>) => e.value.averageRating
  }

  /** `Object.values(studentStats).sort((a, b) => b.averageRating - a.averageRating)`, before the cut. */
  function RankStudents(users: seq<User>, ps: seq<Project>): (r: seq<Entry<PerformerStats>>)
    ensures SortedDesc(r, AverageOf())
    ensures forall e :: e in r <==> e in StudentStats(Filter(users, IsStudent), ps)
  {
    Sort(Enumerate(StudentStats(Filter(users, IsStudent), ps)), AverageOf())
  }

  /** A ranked entry belongs to a user whose role is student. */
  predicate RankedStudent(users: seq<User>, e: Entry<PerformerStats>) {
    exists u :: u in users && IsStudent(u) && u.id == e.key && u.name == e.value.name
  }

  /** `getTopPerformers`. */
  function GetTopPerformers(users: seq<User>, ps: seq<Project>): (r: seq<Entry<PerformerStats>>)
    ensures |r| <= Shown
    ensures r <= RankStudents(users, ps)
    ensures |r| == Shown || r == RankStudents(users, ps)
    ensures SortedDesc(r, AverageOf())
    ensures forall e :: e in r ==> StatsMatch(ps, e.key, e.value) && RankedStudent(users, e)
  {
    var rank := RankStudents(users, ps);
    assert forall e :: e in rank ==> RankedStudent(users, e) by {
      forall e | e in rank ensures RankedStudent(users, e) {
        assert NamedBy(Filter(users, IsStudent), e);
      }
    }
    Take(rank, Shown)
  }

  /** Each student with at least one rating is ranked exactly once. */
  lemma RankingCoversStudents(users: seq<User>, ps: seq<Project>, u: User)
    requires u in users && IsStudent(u) && |ReceivedRatings(ps, u.id)| > 0
    ensures DistinctKeys(RankStudents(users, ps))
    ensures exists e :: e in RankStudents(users, ps) && e.key == u.id
  {
    var obj := StudentStats(Filter(users, IsStudent), ps);
    EnumerateDistinct(obj);
    SortKeepsDistinctKeys(Enumerate(obj), AverageOf());
    StudentStatsCovers(Filter(users, IsStudent), ps, u);
  }

  /** A student left off the list is rated no higher than anyone on it. */
  lemma {:induction false} TopPerformersAreBest(users: seq<User>, ps: seq<Project>, u: User)
    requires u in users && IsStudent(u) && |ReceivedRatings(ps, u.id)| > 0
    ensures var top := GetTopPerformers(users, ps);
      || (exists e :: e in top && e.key == u.id)
      || (|top| == Shown && forall e :: e in top ==> e.value.averageRating >= Mean(ReceivedRatings(ps, u.id)))
  {
    RankingCoversStudents(users, ps, u);
    var rank := RankStudents(users, ps);
    var e :| e in rank && e.key == u.id;
    assert StatsMatch(ps, e.key, e.value);
    TakeOfSorted(rank, AverageOf(), Shown, e);
  }

  /** The entries of the ranking whose average is exactly `k`. */
  function AverageIs(k: real): Entry<PerformerStats> -> bool {
    KeyIs(AverageOf(), k)
  }

  /**
   * Ties are broken by ascending student id when every student id is an array index: the
   * object visits such keys in numeric order, and the sort is stable.
   */
  lemma TiesInIdOrder(users: seq<User>, ps: seq<Project>, k: real)
    requires forall u :: u in users && IsStudent(u) ==> IsArrayIndex(u.id)
    ensures KeysAscending(Filter(RankStudents(users, ps), AverageIs(k)))
  {
    var obj := StudentStats(Filter(users, IsStudent), ps);
    forall e | e in obj ensures IsArrayIndex(e.key) {
      assert NamedBy(Filter(users, IsStudent), e);
    }
    EnumerateAscending(obj);
    SortStable(Enumerate(obj), AverageOf(), k);
    FilterKeepsAscending(Enumerate(obj), AverageIs(k));
  }

  // ---------------------------------------------------------------------------
  // getMostActiveProjects

  /** `{ ...project, totalActivity }`. */
  datatype ActiveProject = ActiveProject(project: Project, totalActivity: int)

  function WithActivity(p: Project): (a: ActiveProject)
    ensures a.project == p
    ensures a.totalActivity == |p.reviews| + |p.submissions|
    ensures a.totalActivity >= 0
  {
    ActiveProject(p, |p.reviews| + |p.submissions|)
  }

  function ActivityOf(): ActiveProject -> real {
    (a: ActiveProject) => a.totalActivity as real
  }

  /** `projects.map(project => ({ ...project, totalActivity }))`. */
  function WithActivities(ps: seq<Project>): (r: seq<ActiveProject>)
    ensures |r| == |ps|
    ensures forall i :: 0 <= i < |ps| ==> r[i] == WithActivity(ps[i])
    ensures forall a :: a in r ==> a.project in ps && a.totalActivity == |a.project.reviews| + |a.project.submissions|
  {
    seq(|ps|, i requires 0 <= i < |ps| => WithActivity(ps[i]))
  }

  /** Every project with its activity, most active first, before the cut. */
  function RankProjects(ps: seq<Project>): (r: seq<ActiveProject>)
    ensures |r| == |ps|
    ensures SortedDesc(r, ActivityOf())
    ensures multiset(r) == multiset(WithActivities(ps))
  {
    Sort(WithActivities(ps), ActivityOf())
  }

  /** Projects with equal activity keep their store order (the sort is stable). */
  lemma RankProjectsKeepsTies(ps: seq<Project>, k: real)
    ensures Filter(RankProjects(ps), KeyIs(ActivityOf(), k)) == Filter(WithActivities(ps), KeyIs(ActivityOf(), k))
  {
    SortStable(WithActivities(ps), ActivityOf(), k);
  }

  /** `getMostActiveProjects`. */
  function GetMostActiveProjects(ps: seq<Project>): (r: seq<ActiveProject>)
    ensures |r| == if |ps| < Shown then |ps| else Shown
    ensures r <= RankProjects(ps)
    ensures SortedDesc(r, ActivityOf())
    ensures forall a :: a in r ==> a.project in ps && a.totalActivity == |a.project.reviews| + |a.project.submissions|
  {
    var rank := RankProjects(ps);
    assert forall a :: a in rank ==> a in WithActivities(ps) by {
      forall a | a in rank ensures a in WithActivities(ps) {
        assert a in multiset(rank);
      }
    }
    Take(rank, Shown)
  }

  /** A project left off the list is no more active than any project on it. */
  lemma {:induction false} MostActiveAreMostActive(ps: seq<Project>, p: Project)
    requires p in ps
    ensures var top := GetMostActiveProjects(ps);
      || WithActivity(p) in top
      || forall a :: a in top ==> a.totalActivity >= |p.reviews| + |p.submissions|
  {
    var rank := RankProjects(ps);
    var k :| 0 <= k < |ps| && ps[k] == p;
    assert WithActivities(ps)[k] == WithActivity(p);
    assert WithActivity(p) in multiset(rank);
    TakeOfSorted(rank, ActivityOf(), Shown, WithActivity(p));
  }
}

=== FILE: entities.dfy ===
/**
 * The records of the peer-review store: users, and projects that own their reviews and
 * submissions. Roles and statuses are the strings the source compares against.
 */
module Entities {

  const TeacherRole: string := "teacher"
  const StudentRole: string := "student"

  const ActiveStatus: string := "active"
  const UpcomingStatus: string := "upcoming"
  const CompletedStatus: string := "completed"

  /** A demo identity; contact and avatar metadata are not modelled. */
  datatype User = User(id: int, name: string, role: string)

  /** One student's rated, commented evaluation of a peer. */
  datatype Review = Review(id: int, reviewerId: int, revieweeId: int, rating: int, comment: string, submittedAt: string)

  /** A student's recorded work product. */
  datatype Submission = Submission(id: int, studentId: int, content: string, submittedAt: string)

  /** A teacher-defined assignment; it owns its reviews and submissions in arrival order. */
  datatype Project = Project(
    id: int,
    title: string,
    description: string,
    dueDate: string,
    status: string,
    assignedStudents: seq<int>,
    reviews: seq<Review>,
    submissions: seq<Submission>)

  predicate IsStudent(u: User) {
    u.role == StudentRole
  }

  /** `project.id === id`, as a value the list operations can take. */
  function HasId(id: int): Project -> bool {
    (p: Project) => p.id == id
  }

  /** `project.status === status`. */
  function HasStatus(status: string): Project -> bool {
    (p: Project) => p.status == status
  }

  /** `user.id === id`. */
  function UserHasId(id: int): User -> bool {
    (u: User) => u.id == id
  }

  function ReviewsOf(p: Project): seq<Review> {
    p.reviews
  }

  function SubmissionsOf(p: Project): seq<Submission> {
    p.submissions
  }
}

=== FILE: js_object.dfy ===
/**
 * A plain JavaScript object whose property names come from integers, as built by
 * `obj[n] = value`. Assigning to an existing property overwrites it in place; a new one is
 * added last. `Object.values` lists the properties whose name is an array index
 * (0 .. 2^32 - 2) in ascending numeric order first, then the others in insertion order.
 */
module JsObject {
  import opened Optional
  import opened Seqs
  import opened StableSort

  datatype Entry<V> = Entry(key: int, value: V)

  /** The largest integer whose decimal name is an array index. */
  const MaxArrayIndex: int := 0xFFFF_FFFE

  predicate IsArrayIndex(k: int) {
    0 <= k <= MaxArrayIndex
  }

  predicate DistinctKeys<V>(obj: seq<Entry<V>>) {
    forall i, j :: 0 <= i < j < |obj| ==> obj[i].key != obj[j].key
  }

  predicate KeysAscending<V>(obj: seq<Entry<V>>) {
    forall i, j :: 0 <= i < j < |obj| ==> obj[i].key < obj[j].key
  }

  /** The position of the first property named `k`, if any. */
  function KeyIndex<V>(obj: seq<Entry<V>>, k: int): (r: Option<nat>)
    ensures r.None? <==> forall i :: 0 <= i < |obj| ==> obj[i].key != k
    ensures r.Some? ==> r.value < |obj| && obj[r.value].key == k && forall j :: 0 <= j < r.value ==> obj[j].key != k
  {
    if obj == [] then None
    else if obj[0].key == k then Some(0)
    else
      var t := KeyIndex(obj[1..], k);
      if t.None? then None else Some(t.value + 1)
  }

  /** `obj[k] = v`. */
  function Put<V(==,!new)>(obj: seq<Entry<V>>, k: int, v: V): (r: seq<Entry<V>>)
    ensures Entry(k, v) in r
    ensures forall e :: e in r ==> e == Entry(k, v) || e in obj
    ensures forall e :: e in obj && e.key != k ==> e in r
    ensures DistinctKeys(obj) ==> DistinctKeys(r) && forall e :: e in r && e.key == k ==> e == Entry(k, v)
    // A new key goes last; an existing key is overwritten where it first occurs.
    ensures (forall e :: e in obj ==> e.key != k) ==> r == obj + [Entry(k, v)]
    ensures forall i | 0 <= i < |obj| && obj[i].key == k && (forall j :: 0 <= j < i ==> obj[j].key != k) ::
      r == obj[i := Entry(k, v)]
  {
    var n := KeyIndex(obj, k);
    if n.None? then
      assert forall e :: e in obj ==> e.key != k;
      obj + [Entry(k, v)]
    else
      var i := n.value;
      var r := obj[i := Entry(k, v)];
      assert r[i] == Entry(k, v);
      assert forall e :: e in obj && e.key != k ==> e in r by {
        forall e | e in obj && e.key != k ensures e in r {
          var j :| 0 <= j < |obj| && obj[j] == e;
          assert r[j] == e;
        }
      }
      assert forall e :: e in r ==> e == Entry(k, v) || e in obj by {
        forall e | e in r ensures e == Entry(k, v) || e in obj {
          var j :| 0 <= j < |r| && r[j] == e;
          if j != i { assert obj[j] == e; }
        }
      }
      assert forall m :: (0 <= m < |obj| && obj[m].key == k && (forall j :: 0 <= j < m ==> obj[j].key != k)) ==> m == i;
      r
  }

  function IndexKeyed<V>(): Entry<V> -> bool {
    (e: Entry<V>) => IsArrayIndex(e.key)
  }

  /** Sorting non-increasingly by the negated key sorts ascending by key. */
  function NegatedKey<V>(): Entry<V> -> real {
    (e: Entry<V>) => -(e.key as real)
  }

  /** The order in which `Object.values` (and `for ... in`) visit the properties. */
  function Enumerate<V(==,!new)>(obj: seq<Entry<V>>): (r: seq<Entry<V>>)
    ensures forall e :: e in r <==> e in obj
    ensures |r| == |obj|
    // The properties that are not array indexes follow, in insertion order.
    ensures Filter(r, Not(IndexKeyed())) == Filter(obj, Not(IndexKeyed()))
  {
    var idx := Filter(obj, IndexKeyed());
    var rest := Filter(obj, Not(IndexKeyed()));
    FilterSplitsLength(obj, IndexKeyed());
    var sorted := Sort(idx, NegatedKey());
    FilterConcat(sorted, rest, Not(IndexKeyed()));
    FilterKeepsNone(sorted, Not(IndexKeyed()));
    FilterKeepsAll(rest, Not(IndexKeyed()));
    Sort(Filter(obj, IndexKeyed()), NegatedKey()) + Filter(obj, Not(IndexKeyed()))
  }

  lemma {:induction false} FilterKeepsDistinctKeys<V(!new)>(obj: seq<Entry<V>>, keep: Entry<V> -> bool)
    requires DistinctKeys(obj)
    ensures DistinctKeys(Filter(obj, keep))
  {
    if obj != [] {
      FilterKeepsDistinctKeys(obj[1..], keep);
      var t := Filter(obj[1..], keep);
      forall i | 0 <= i < |t| ensures t[i].key != obj[0].key {
        assert t[i] in t;
        var j :| 0 <= j < |obj[1..]| && obj[1..][j] == t[i];
        assert obj[j + 1] == t[i];
      }
    }
  }

  lemma {:induction false} FilterKeepsAscending<V(!new)>(obj: seq<Entry<V>>, keep: Entry<V> -> bool)
    requires KeysAscending(obj)
    ensures KeysAscending(Filter(obj, keep))
  {
    if obj != [] {
      FilterKeepsAscending(obj[1..], keep);
      var t := Filter(obj[1..], keep);
      forall i | 0 <= i < |t| ensures obj[0].key < t[i].key {
        assert t[i] in t;
        var j :| 0 <= j < |obj[1..]| && obj[1..][j] == t[i];
        assert obj[j + 1] == t[i];
      }
    }
  }

  lemma {:induction false} SortKeepsDistinctKeys<V(!new)>(obj: seq<Entry<V>>, key: Entry<V> -> real)
    requires DistinctKeys(obj)
    ensures DistinctKeys(Sort(obj, key))
  {
    if obj != [] {
      var t := Sort(obj[1..], key);
      SortKeepsDistinctKeys(obj[1..], key);
      forall e | e in t ensures e.key != obj[0].key {
        var j :| 0 <= j < |obj[1..]| && obj[1..][j] == e;
        assert obj[j + 1] == e;
      }
      InsertKeepsDistinctKeys(obj[0], t, key);
    }
  }

  lemma {:induction false} InsertKeepsDistinctKeys<V(!new)>(x: Entry<V>, s: seq<Entry<V>>, key: Entry<V> -> real)
    requires SortedDesc(s, key) && DistinctKeys(s)
    requires forall e :: e in s ==> e.key != x.key
    ensures DistinctKeys(Insert(x, s, key))
  {
    if s != [] && key(x) < key(s[0]) {
      var t := Insert(x, s[1..], key);
      InsertKeepsDistinctKeys(x, s[1..], key);
      forall i | 0 <= i < |t| ensures t[i].key != s[0].key {
        assert t[i] in t;
        if t[i] != x {
          var j :| 0 <= j < |s[1..]| && s[1..][j] == t[i];
          assert s[j + 1] == t[i];
        }
      }
    }
  }

  /** When every property name is an array index, `Object.values` visits keys in ascending order. */
  lemma EnumerateAscending<V(!new)>(obj: seq<Entry<V>>)
    requires DistinctKeys(obj)
    requires forall e :: e in obj ==> IsArrayIndex(e.key)
    ensures KeysAscending(Enumerate(obj))
  {
    var idx := Filter(obj, IndexKeyed());
    var rest := Filter(obj, Not(IndexKeyed()));
    FilterKeepsNone(obj, Not(IndexKeyed()));
    FilterKeepsDistinctKeys(obj, IndexKeyed());
    SortKeepsDistinctKeys(idx, NegatedKey());
    var r := Sort(idx, NegatedKey());
    assert Enumerate(obj) == r;
    forall i, j | 0 <= i < j < |r| ensures r[i].key < r[j].key {
      assert NegatedKey()(r[i]) >= NegatedKey()(r[j]);
    }
  }

  /** `Object.values` never repeats a property. */
  lemma EnumerateDistinct<V(!new)>(obj: seq<Entry<V>>)
    requires DistinctKeys(obj)
    ensures DistinctKeys(Enumerate(obj))
  {
    var idx := Filter(obj, IndexKeyed());
    var rest := Filter(obj, Not(IndexKeyed()));
    FilterKeepsDistinctKeys(obj, IndexKeyed());
    FilterKeepsDistinctKeys(obj, Not(IndexKeyed()));
    SortKeepsDistinctKeys(idx, NegatedKey());
    var a := Sort(idx, NegatedKey());
    var r := a + rest;
    forall i, j | 0 <= i < j < |r| ensures r[i].key != r[j].key {
      if i < |a| && j >= |a| {
        assert r[i] in a && r[j] in rest;
      }
    }
  }
}

=== FILE: optional.dfy ===
/** The "value or absent" type used where the source returns `undefined`/`null`. */
module Optional {

  datatype Option<+T> = None | Some(value: T) {

    /** The value, or `default` when absent (the source's `x || default`). */
    function GetOr(default: T): T {
      match this
      case Some(v) => v
      case None => default
    }
  }
}

=== FILE: queries.dfy ===
/**
 * The store's derived views: lookups by id, per-user project/review/submission lists
 * (each item tagged with the project it belongs to), and the platform-wide analytics.
 */
module Queries {
  import opened Optional
  import opened Seqs
  import opened Entities
  import opened Store

  /** `getProjectById`: the first project with this id, if any. */
  function GetProjectById(ps: seq<Project>, id: int): (r: Option<Project>)
    ensures r.None? <==> forall q :: q in ps ==> q.id != id
    ensures r.Some? ==> r.value in ps && r.value.id == id
    ensures r.Some? ==> exists i :: 0 <= i < |ps| && ps[i] == r.value && forall j :: 0 <= j < i ==> ps[j].id != id
  {
    Find(ps, HasId(id))
  }

  /** `getUserById`: the first user with this id, if any. */
  function GetUserById(users: seq<User>, id: int): (r: Option<User>)
    ensures r.None? <==> forall u :: u in users ==> u.id != id
    ensures r.Some? ==> r.value in users && r.value.id == id
    ensures r.Some? ==> exists i :: 0 <= i < |users| && users[i] == r.value && forall j :: 0 <= j < i ==> users[j].id != id
  {
    Find(users, UserHasId(id))
  }

  /** `getProjectsByUserId`: the projects the user is assigned to, in store order. */
  function GetProjectsByUserId(ps: seq<Project>, userId: int): (r: seq<Project>)
    ensures forall q :: q in r <==> q in ps && userId in q.assignedStudents
    ensures |r| <= |ps|
  {
    Filter(ps, AssignedTo(userId))
  }

  /** The assigned projects keep their store order. */
  lemma ProjectsByUserIdOrder(a: seq<Project>, p: Project, b: seq<Project>, userId: int)
    ensures GetProjectsByUserId(a + [p] + b, userId)
         == GetProjectsByUserId(a, userId) + (if userId in p.assignedStudents then [p] else []) + GetProjectsByUserId(b, userId)
  {
    FilterConcat(a + [p], b, AssignedTo(userId));
    FilterSnoc(a, p, AssignedTo(userId));
  }

  function AssignedTo(userId: int): Project -> bool {
    (p: Project) => userId in p.assignedStudents
  }

  /** A review or submission together with the project it was found in (`{...item, project}`). */
  datatype Tagged<T> = Tagged(item: T, project: Project)

  function TagAll<T>(xs: seq<T>, p: Project): (r: seq<Tagged<T>>)
    ensures |r| == |xs|
    ensures forall i :: 0 <= i < |xs| ==> r[i] == Tagged(xs[i], p)
  {
    seq(|xs|, i requires 0 <= i < |xs| => Tagged(xs[i], p))
  }

  /**
   * The nested `forEach` of the per-user lookups: for each project in order, the items of
   * `items(project)` that satisfy `keep`, in order, each tagged with that project.
   */
  function Collect<T(==,!new)>(ps: seq<Project>, items: Project -> seq<T>, keep: T -> bool): (r: seq<Tagged<T>>)
    ensures forall t :: t in r <==> t.project in ps && t.item in items(t.project) && keep(t.item)
  {
    if ps == [] then []
    else
      var here := TagAll(Filter(items(ps[0]), keep), ps[0]);
      assert forall t :: t in here <==> t.project == ps[0] && t.item in items(ps[0]) && keep(t.item) by {
        forall t: Tagged<T> | t.project == ps[0] && t.item in items(ps[0]) && keep(t.item)
          ensures t in here
        {
          var f := Filter(items(ps[0]), keep);
          var i :| 0 <= i < |f| && f[i] == t.item;
          assert here[i] == t;
        }
      }
      assert forall q :: q in ps <==> q == ps[0] || q in ps[1..];
      here + Collect(ps[1..], items, keep)
  }

  /** Collecting over two runs of projects is collecting over each, in order. */
  lemma {:induction false} CollectConcat<T(!new)>(a: seq<Project>, b: seq<Project>, items: Project -> seq<T>, keep: T -> bool)
    ensures Collect(a + b, items, keep) == Collect(a, items, keep) + Collect(b, items, keep)
  {
    if a == [] {
      assert a + b == b;
    } else {
      assert (a + b)[0] == a[0];
      assert (a + b)[1..] == a[1..] + b;
      CollectConcat(a[1..], b, items, keep);
    }
  }

  /** For one project, the collected items are its own matching items in their order. */
  lemma CollectOne<T(!new)>(p: Project, items: Project -> seq<T>, keep: T -> bool)
    ensures Collect([p], items, keep) == TagAll(Filter(items(p), keep), p)
  {
    assert [p][1..] == [];
  }

  /** `review.reviewerId === userId || review.revieweeId === userId`. */
  function Involves(userId: int): Review -> bool {
    (rv: Review) => rv.reviewerId == userId || rv.revieweeId == userId
  }

  /** `submission.studentId === userId`. */
  function SubmittedBy(userId: int): Submission -> bool {
    (sub: Submission) => sub.studentId == userId
  }

  /** `getReviewsByUserId`: exactly the reviews the user gave or received, tagged with their project. */
  function GetReviewsByUserId(ps: seq<Project>, userId: int): (r: seq<Tagged<Review>>)
    ensures forall t :: t in r <==>
      && t.project in ps
      && t.item in t.project.reviews
      && (t.item.reviewerId == userId || t.item.revieweeId == userId)
  {
    Collect(ps, ReviewsOf, Involves(userId))
  }

  /** `getSubmissionsByUserId`: exactly the user's submissions, tagged with their project. */
  function GetSubmissionsByUserId(ps: seq<Project>, userId: int): (r: seq<Tagged<Submission>>)
    ensures forall t :: t in r <==>
      && t.project in ps
      && t.item in t.project.submissions
      && t.item.studentId == userId
  {
    Collect(ps, SubmissionsOf, SubmittedBy(userId))
  }

  /** The per-user lookups list projects in store order, and each project's items in their own order. */
  lemma ReviewsByUserIdOrder(a: seq<Project>, p: Project, b: seq<Project>, userId: int)
    ensures GetReviewsByUserId(a + [p] + b, userId)
         == GetReviewsByUserId(a, userId) + TagAll(Filter(p.reviews, Involves(userId)), p) + GetReviewsByUserId(b, userId)
  {
    CollectConcat(a + [p], b, ReviewsOf, Involves(userId));
    CollectConcat(a, [p], ReviewsOf, Involves(userId));
    CollectOne(p, ReviewsOf, Involves(userId));
  }

  lemma SubmissionsByUserIdOrder(a: seq<Project>, p: Project, b: seq<Project>, userId: int)
    ensures GetSubmissionsByUserId(a + [p] + b, userId)
         == GetSubmissionsByUserId(a, userId) + TagAll(Filter(p.submissions, SubmittedBy(userId)), p) + GetSubmissionsByUserId(b, userId)
  {
    CollectConcat(a + [p], b, SubmissionsOf, SubmittedBy(userId));
    CollectConcat(a, [p], SubmissionsOf, SubmittedBy(userId));
    CollectOne(p, SubmissionsOf, SubmittedBy(userId));
  }

  // ---------------------------------------------------------------------------
  // Analytics

  /** Every review of every project, project by project (`allReviews.push(...project.reviews)`). */
  function AllReviews(ps: seq<Project>): (r: seq<Review>)
    ensures forall rv :: rv in r <==> exists q :: q in ps && rv in q.reviews
    ensures |r| == ReviewCount(ps)
  {
    if ps == [] then []
    else
      assert forall q :: q in ps <==> q == ps[0] || q in ps[1..];
      ps[0].reviews + AllReviews(ps[1..])
  }

  /** The number of reviews, summed project by project. */
  function ReviewCount(ps: seq<Project>): nat {
    if ps == [] then 0 else |ps[0].reviews| + ReviewCount(ps[1..])
  }

  function Ratings(rs: seq<Review>): (r: seq<int>)
    ensures |r| == |rs|
    ensures forall i :: 0 <= i < |rs| ==> r[i] == rs[i].rating
  {
    seq(|rs|, i requires 0 <= i < |rs| => rs[i].rating)
  }

  /** The exact mean of a non-empty list of ratings. */
  function Mean(xs: seq<int>): real
    requires |xs| > 0
  {
    Sum(xs) as real / |xs| as real
  }

  /** `Math.round(x * 10) / 10` on exact reals: `Math.round` rounds halves upwards. */
  function RoundToTenth(x: real): (r: real)
    ensures x - 0.05 < r <= x + 0.05
    ensures (r * 10.0).Floor as real == r * 10.0
  {
    (x * 10.0 + 0.5).Floor as real / 10.0
  }

  /** Rounding to a tenth keeps a value that lies between two whole numbers between them. */
  lemma RoundToTenthWithin(x: real, lo: int, hi: int)
    requires lo as real <= x <= hi as real
    ensures lo as real <= RoundToTenth(x) <= hi as real
  {
    var n := (x * 10.0 + 0.5).Floor;
    assert n as real <= x * 10.0 + 0.5 < n as real + 1.0;
    assert 10 * lo <= n <= 10 * hi;
  }

  datatype Analytics = Analytics(
    totalProjects: nat,
    activeProjects: nat,
    totalStudents: nat,
    totalReviews: nat,
    averageRating: real)

  /** `getAnalytics`. */
  function GetAnalytics(s: State): (a: Analytics)
    ensures a.totalProjects == |s.projects|
    ensures a.activeProjects == |Filter(s.projects, HasStatus(ActiveStatus))| <= a.totalProjects
    ensures a.totalStudents == |Filter(s.users, IsStudent)| <= |s.users|
    ensures a.totalReviews == ReviewCount(s.projects)
    ensures a.totalReviews == 0 ==> a.averageRating == 0.0
    ensures a.totalReviews > 0 ==> a.averageRating == RoundToTenth(Mean(Ratings(AllReviews(s.projects))))
  {
    var all := AllReviews(s.projects);
    Analytics(
      |s.projects|,
      |Filter(s.projects, HasStatus(ActiveStatus))|,
      |Filter(s.users, IsStudent)|,
      |all|,
      if |all| > 0 then RoundToTenth(Mean(Ratings(all))) else 0.0)
  }

  /** The mean of values between `lo` and `hi` is between them too. */
  lemma MeanWithin(xs: seq<int>, lo: int, hi: int)
    requires |xs| > 0
    requires forall i :: 0 <= i < |xs| ==> lo <= xs[i] <= hi
    ensures lo as real <= Mean(xs) <= hi as real
  {
    SumBounds(xs, lo, hi);
    QuotientAbove(Sum(xs), |xs|, lo);
    QuotientBelow(Sum(xs), |xs|, hi);
  }

  lemma QuotientAbove(total: int, n: int, lo: int)
    requires n > 0 && lo * n <= total
    ensures lo as real <= total as real / n as real
  {
    assert (lo * n) as real == lo as real * n as real;
    assert total as real / n as real - lo as real == (total as real - lo as real * n as real) / n as real;
  }

  lemma QuotientBelow(total: int, n: int, hi: int)
    requires n > 0 && total <= hi * n
    ensures total as real / n as real <= hi as real
  {
    assert (hi * n) as real == hi as real * n as real;
    assert hi as real - total as real / n as real == (hi as real * n as real - total as real) / n as real;
  }

  /** With every rating between 1 and 5, a non-empty average is between 1 and 5 as well. */
  lemma AverageRatingInRange(s: State)
    requires forall rv :: rv in AllReviews(s.projects) ==> 1 <= rv.rating <= 5
    requires GetAnalytics(s).totalReviews > 0
    ensures 1.0 <= GetAnalytics(s).averageRating <= 5.0
  {
    var all := AllReviews(s.projects);
    var xs := Ratings(all);
    forall i | 0 <= i < |xs| ensures 1 <= xs[i] <= 5 {
      assert all[i] in all;
    }
    MeanWithin(xs, 1, 5);
    RoundToTenthWithin(Mean(xs), 1, 5);
  }

  // ---------------------------------------------------------------------------
  // How the reducer moves the derived views

  /** A project appended with an id no earlier project has is what `getProjectById` then finds. */
  lemma {:induction false} AddProjectThenFind(s: State, p: Project)
    requires forall q :: q in s.projects ==> q.id != p.id
    ensures GetProjectById(Reduce(s, AddProject(p)).projects, p.id) == Some(p)
  {
    FindConcat(s.projects, [p], HasId(p.id));
    assert [p][1..] == [];
  }

  /** An appended project never changes what `getProjectById` finds for an id that already existed. */
  lemma {:induction false} AddProjectKeepsEarlierMatch(s: State, p: Project, id: int)
    requires GetProjectById(s.projects, id).Some?
    ensures GetProjectById(Reduce(s, AddProject(p)).projects, id) == GetProjectById(s.projects, id)
  {
    FindConcat(s.projects, [p], HasId(id));
  }

  lemma {:induction false} FindAfterReplace(ps: seq<Project>, p: Project)
    requires exists q :: q in ps && q.id == p.id
    ensures Find(UpdateWhere(ps, p.id, ReplaceWith(p)), HasId(p.id)) == Some(p)
  {
    var r := UpdateWhere(ps, p.id, ReplaceWith(p));
    if ps[0].id != p.id {
      assert r[1..] == UpdateWhere(ps[1..], p.id, ReplaceWith(p));
      var q :| q in ps && q.id == p.id;
      assert q in ps[1..];
      FindAfterReplace(ps[1..], p);
    }
  }

  /** After UPDATE_PROJECT of an existing id, `getProjectById` finds the payload. */
  lemma UpdateThenFind(s: State, p: Project)
    requires GetProjectById(s.projects, p.id).Some?
    ensures GetProjectById(Reduce(s, UpdateProject(p)).projects, p.id) == Some(p)
  {
    var q := GetProjectById(s.projects, p.id).value;
    assert q in s.projects && q.id == p.id;
    var after := Reduce(s, UpdateProject(p)).projects;
    assert after == UpdateWhere(s.projects, p.id, ReplaceWith(p));
    FindAfterReplace(s.projects, p);
    assert Find(after, HasId(p.id)) == Some(p);
  }

  /** After DELETE_PROJECT, no project with that id can be found. */
  lemma DeleteThenFind(s: State, id: int)
    ensures GetProjectById(Reduce(s, DeleteProject(id)).projects, id).None?
  {
  }

  /** No action changes the users list, so `getUserById` answers the same after any of them. */
  lemma ReduceKeepsUserLookup(s: State, a: Action, id: int)
    ensures GetUserById(Reduce(s, a).users, id) == GetUserById(s.users, id)
  {
  }

  /** ADD_PROJECT adds the new project at the end of each assigned student's list, and only theirs. */
  lemma AddProjectThenProjectsByUser(s: State, p: Project, userId: int)
    ensures GetProjectsByUserId(Reduce(s, AddProject(p)).projects, userId)
         == GetProjectsByUserId(s.projects, userId) + (if userId in p.assignedStudents then [p] else [])
  {
    FilterSnoc(s.projects, p, AssignedTo(userId));
  }

  /** DELETE_PROJECT removes the deleted projects from each user's list and keeps the rest in order. */
  lemma DeleteThenProjectsByUser(s: State, id: int, userId: int)
    ensures GetProjectsByUserId(Reduce(s, DeleteProject(id)).projects, userId)
         == Filter(GetProjectsByUserId(s.projects, userId), Not(HasId(id)))
  {
    FilterCommutes(s.projects, Not(HasId(id)), AssignedTo(userId));
  }

  lemma TagAllConcat<T>(xs: seq<T>, ys: seq<T>, p: Project)
    ensures TagAll(xs + ys, p) == TagAll(xs, p) + TagAll(ys, p)
  {
    assert |TagAll(xs + ys, p)| == |TagAll(xs, p) + TagAll(ys, p)|;
    forall i | 0 <= i < |xs + ys| ensures TagAll(xs + ys, p)[i] == (TagAll(xs, p) + TagAll(ys, p))[i] {
      if i >= |xs| {
        assert (xs + ys)[i] == ys[i - |xs|];
      }
    }
  }

  /** Tagging the items kept from a list with one more item adds that item's tag, if it is kept. */
  lemma TagAllSnoc<T(!new)>(xs: seq<T>, x: T, keep: T -> bool, p: Project)
    ensures TagAll(Filter(xs + [x], keep), p) == TagAll(Filter(xs, keep), p) + (if keep(x) then [Tagged(x, p)] else [])
  {
    FilterSnoc(xs, x, keep);
    TagAllConcat(Filter(xs, keep), if keep(x) then [x] else [], p);
  }

  /**
   * ADD_REVIEW on the one project with the id: every user's list keeps its other entries,
   * now tagged with the updated project, and the review's writer and subject each gain it
   * after that project's earlier reviews.
   */
  lemma AddReviewThenReviewsByUser(a: seq<Project>, p: Project, b: seq<Project>, s: State, rv: Review, userId: int)
    requires s.projects == a + [p] + b
    requires forall q :: q in a + b ==> q.id != p.id
    ensures var p' := p.(reviews := p.reviews + [rv]);
      GetReviewsByUserId(Reduce(s, AddReview(p.id, rv)).projects, userId)
      == GetReviewsByUserId(a, userId)
         + TagAll(Filter(p.reviews, Involves(userId)), p')
         + (if rv.reviewerId == userId || rv.revieweeId == userId then [Tagged(rv, p')] else [])
         + GetReviewsByUserId(b, userId)
  {
    var p' := p.(reviews := p.reviews + [rv]);
    UpdateWhereOnly(a, p, b, AppendReview(rv));
    assert Reduce(s, AddReview(p.id, rv)).projects == a + [p'] + b;
    ReviewsAfterAppendAt(a, p, b, rv, userId);
  }

  lemma ReviewsAfterAppendAt(a: seq<Project>, p: Project, b: seq<Project>, rv: Review, userId: int)
    ensures var p' := p.(reviews := p.reviews + [rv]);
      GetReviewsByUserId(a + [p'] + b, userId)
      == GetReviewsByUserId(a, userId)
         + TagAll(Filter(p.reviews, Involves(userId)), p')
         + (if Involves(userId)(rv) then [Tagged(rv, p')] else [])
         + GetReviewsByUserId(b, userId)
  {
    var p' := p.(reviews := p.reviews + [rv]);
    ReviewsByUserIdOrder(a, p', b, userId);
    TagAllSnoc(p.reviews, rv, Involves(userId), p');
  }

  /**
   * ADD_SUBMISSION on the one project with the id: the submitter gains the submission after
   * that project's earlier submissions; every other user's list only sees the project updated.
   */
  lemma AddSubmissionThenSubmissionsByUser(a: seq<Project>, p: Project, b: seq<Project>, s: State, sub: Submission, userId: int)
    requires s.projects == a + [p] + b
    requires forall q :: q in a + b ==> q.id != p.id
    ensures var p' := p.(submissions := p.submissions + [sub]);
      GetSubmissionsByUserId(Reduce(s, AddSubmission(p.id, sub)).projects, userId)
      == GetSubmissionsByUserId(a, userId)
         + TagAll(Filter(p.submissions, SubmittedBy(userId)), p')
         + (if sub.studentId == userId then [Tagged(sub, p')] else [])
         + GetSubmissionsByUserId(b, userId)
  {
    var p' := p.(submissions := p.submissions + [sub]);
    UpdateWhereOnly(a, p, b, AppendSubmission(sub));
    assert Reduce(s, AddSubmission(p.id, sub)).projects == a + [p'] + b;
    SubmissionsAfterAppendAt(a, p, b, sub, userId);
  }

  lemma SubmissionsAfterAppendAt(a: seq<Project>, p: Project, b: seq<Project>, sub: Submission, userId: int)
    ensures var p' := p.(submissions := p.submissions + [sub]);
      GetSubmissionsByUserId(a + [p'] + b, userId)
      == GetSubmissionsByUserId(a, userId)
         + TagAll(Filter(p.submissions, SubmittedBy(userId)), p')
         + (if SubmittedBy(userId)(sub) then [Tagged(sub, p')] else [])
         + GetSubmissionsByUserId(b, userId)
  {
    var p' := p.(submissions := p.submissions + [sub]);
    SubmissionsByUserIdOrder(a, p', b, userId);
    TagAllSnoc(p.submissions, sub, SubmittedBy(userId), p');
  }

  /** The projects an ADD_REVIEW hits. */
  function MatchCount(ps: seq<Project>, pid: int): nat {
    |Filter(ps, HasId(pid))|
  }

  /** ADD_REVIEW adds the review once for every project carrying the target id. */
  lemma {:induction false} AddReviewCount(ps: seq<Project>, pid: int, rv: Review)
    ensures ReviewCount(UpdateWhere(ps, pid, AppendReview(rv))) == ReviewCount(ps) + MatchCount(ps, pid)
  {
    if ps != [] {
      var r := UpdateWhere(ps, pid, AppendReview(rv));
      assert r[1..] == UpdateWhere(ps[1..], pid, AppendReview(rv));
      AddReviewCount(ps[1..], pid, rv);
    }
  }

  /** With unique project ids, `addReview` on an existing project raises the review total by one. */
  lemma AddReviewRaisesTotal(s: State, pid: int, d: ReviewDraft, now: int, stamp: string)
    requires MatchCount(s.projects, pid) == 1
    ensures GetAnalytics(Perform(s, AddReviewCmd(pid, d), now, stamp)).totalReviews == GetAnalytics(s).totalReviews + 1
  {
    AddReviewCount(s.projects, pid, NewReview(d, now, stamp));
  }
}

=== FILE: review_form.dfy ===
/**
 * The student's review page: who may be reviewed, the star rating, the guard that decides
 * whether a review reaches the store, the form reset, and the given/received lists.
 */
module ReviewForm {
  import opened Optional
  import opened Seqs
  import opened Text
  import opened Entities
  import opened Store

  /** `user?.id !== id`: with no user every id passes. */
  function NotSelf(user: Option<User>): int -> bool {
    (id: int) => user.None? || id != user.value.id
  }

  /** `peers`: the project's assigned students other than the current user, in order. */
  function Peers(project: Option<Project>, user: Option<User>): (r: seq<int>)
    ensures project.None? ==> r == []
    ensures project.Some? ==> forall id :: id in r <==> id in project.value.assignedStudents && (user.None? || id != user.value.id)
    ensures project.Some? && user.Some? ==> user.value.id !in r
  {
    match project
    case None => []
    case Some(p) => Filter(p.assignedStudents, NotSelf(user))
  }

  /** A user who is not assigned to the project sees every assigned student as a peer. */
  lemma PeersOfOutsider(p: Project, user: Option<User>)
    requires user.None? || user.value.id !in p.assignedStudents
    ensures Peers(Some(p), user) == p.assignedStudents
  {
    FilterKeepsAll(p.assignedStudents, NotSelf(user));
  }

  /**
   * `peers` keeps the assigned students' order: adding a student at the end of the project's
   * list adds them at the end of the peers, unless they are the current user.
   */
  lemma PeersAppend(p: Project, id: int, user: Option<User>)
    ensures Peers(Some(p.(assignedStudents := p.assignedStudents + [id])), user)
         == Peers(Some(p), user) + (if user.Some? && id == user.value.id then [] else [id])
  {
    FilterSnoc(p.assignedStudents, id, NotSelf(user));
  }

  /** A star is one of the five rendered (`[...Array(5)]`), numbered from 0. */
  type StarIndex = i: int | 0 <= i < 5

  /** The form: the chosen peer (absent for the empty choice), rating, comment, visibility. */
  datatype Form = Form(selectedPeer: Option<int>, rating: int, comment: string, showForm: bool)

  /** The state the page starts in and returns to after a submission. */
  const Cleared: Form := Form(None, 0, "", false)

  /** `handleSubmitReview`: the review it sends, if any, and the form it leaves. */
  function HandleSubmit(form: Form, user: User, projectId: int): (r: (Option<Command>, Form))
    ensures r.0.Some? <==> form.selectedPeer.Some? && form.rating > 0 && Trim(form.comment) != []
    ensures r.0.None? ==> r.1 == form
    ensures r.0.Some? ==> r.1 == Form(None, 0, "", false)
    ensures r.0.Some? ==> r.0.value == AddReviewCmd(projectId,
      ReviewDraft(user.id, form.selectedPeer.value, form.rating, Trim(form.comment)))
  {
    if form.selectedPeer.Some? && form.rating > 0 && Trim(form.comment) != [] then
      var draft := ReviewDraft(user.id, form.selectedPeer.value, form.rating, Trim(form.comment));
      (Some(AddReviewCmd(projectId, draft)), Cleared)
    else
      (None, form)
  }

  /** What the student can do on the page. */
  datatype Event =
    | OpenForm
    | Cancel
    | SelectPeer(choice: Option<int>)
    | ClickStar(star: StarIndex)
    | EditComment(text: string)
    | Submit

  /** An event the page can produce: the peer choice is the empty option or one of `peers`. */
  predicate Offered(e: Event, peers: seq<int>) {
    e.SelectPeer? ==> e.choice.None? || e.choice.value in peers
  }

  /** One event. The controls other than "+ Add Review" exist only while the form is shown. */
  function Step(form: Form, e: Event, user: User, projectId: int): (r: (Option<Command>, Form))
    ensures !form.showForm && !e.OpenForm? ==> r == (None, form)
    ensures e.OpenForm? ==> r == (None, form.(showForm := true))
    ensures e.Submit? && form.showForm ==> r == HandleSubmit(form, user, projectId)
    ensures !e.Submit? ==> r.0.None?
    ensures form.showForm && e.Cancel? ==> r.1 == form.(showForm := false)
    ensures form.showForm && e.SelectPeer? ==> r.1 == form.(selectedPeer := e.choice)
    ensures form.showForm && e.EditComment? ==> r.1 == form.(comment := e.text)
    ensures form.showForm && e.ClickStar? ==> r.1 == form.(rating := e.star + 1) && 1 <= r.1.rating <= 5
  {
    match e
    case OpenForm => (None, form.(showForm := true))
    case Cancel => (None, if form.showForm then form.(showForm := false) else form)
    case SelectPeer(c) => (None, if form.showForm then form.(selectedPeer := c) else form)
    case ClickStar(i) => (None, if form.showForm then form.(rating := i + 1) else form)
    case EditComment(t) => (None, if form.showForm then form.(comment := t) else form)
    case Submit => if form.showForm then HandleSubmit(form, user, projectId) else (None, form)
  }

  /** What the page keeps true: a rating of 0 (none yet) to 5, and a chosen peer who is offered. */
  predicate FormOk(form: Form, peers: seq<int>) {
    && 0 <= form.rating <= 5
    && (form.selectedPeer.Some? ==> form.selectedPeer.value in peers)
  }

  /** A review the page may send for `user` on `projectId`. */
  predicate ValidSubmission(c: Command, user: User, projectId: int, peers: seq<int>) {
    && c.AddReviewCmd?
    && c.projectId == projectId
    && c.review.reviewerId == user.id
    && c.review.revieweeId in peers
    && 1 <= c.review.rating <= 5
    && c.review.comment != []
    && Trim(c.review.comment) == c.review.comment
  }

  /** Each event keeps the form's invariant, and a review it sends is well formed. */
  lemma StepKeepsFormOk(form: Form, e: Event, user: User, projectId: int, peers: seq<int>)
    requires FormOk(form, peers) && Offered(e, peers)
    ensures FormOk(Step(form, e, user, projectId).1, peers)
    ensures Step(form, e, user, projectId).0.Some? ==> ValidSubmission(Step(form, e, user, projectId).0.value, user, projectId, peers)
  {
    if e.Submit? && form.showForm && Step(form, e, user, projectId).0.Some? {
      TrimIdempotent(form.comment);
    }
  }

  /** Runs a sequence of events; returns the reviews sent, in order, and the final form. */
  function Run(form: Form, events: seq<Event>, user: User, projectId: int, peers: seq<int>): (r: (seq<Command>, Form))
    requires FormOk(form, peers)
    requires forall i :: 0 <= i < |events| ==> Offered(events[i], peers)
    ensures FormOk(r.1, peers)
    ensures forall c :: c in r.0 ==> ValidSubmission(c, user, projectId, peers)
    ensures |r.0| <= |events|
    decreases |events|
  {
    if events == [] then ([], form)
    else
      var (sent, next) := Step(form, events[0], user, projectId);
      StepKeepsFormOk(form, events[0], user, projectId, peers);
      var (rest, last) := Run(next, events[1..], user, projectId, peers);
      var here := if sent.Some? then [sent.value] else [];
      (here + rest, last)
  }

  /**
   * Every review the page sends, over any sequence of events from a fresh page, comes from
   * the current user, names a peer other than the user, rates 1 to 5 and carries a
   * non-empty trimmed comment.
   */
  lemma SubmittedReviewsAreWellFormed(events: seq<Event>, user: User, p: Project, c: Command)
    requires forall i :: 0 <= i < |events| ==> Offered(events[i], Peers(Some(p), Some(user)))
    requires c in Run(Cleared, events, user, p.id, Peers(Some(p), Some(user))).0
    ensures c.AddReviewCmd? && c.projectId == p.id
    ensures c.review.reviewerId == user.id && c.review.revieweeId != user.id
    ensures c.review.revieweeId in p.assignedStudents
    ensures 1 <= c.review.rating <= 5
    ensures c.review.comment != [] && Trim(c.review.comment) == c.review.comment
  {
  }

  /** `reviewerId === user?.id`: with no user nothing matches. */
  function GivenBy(user: Option<User>): Review -> bool {
    (rv: Review) => user.Some? && rv.reviewerId == user.value.id
  }

  /** `revieweeId === user?.id`. */
  function ReceivedBy(user: Option<User>): Review -> bool {
    (rv: Review) => user.Some? && rv.revieweeId == user.value.id
  }

  /** "Reviews Given": this project's reviews written by the user, in order. */
  function ReviewsGiven(p: Project, user: Option<User>): (r: seq<Review>)
    ensures forall rv :: rv in r <==> rv in p.reviews && user.Some? && rv.reviewerId == user.value.id
    ensures user.None? ==> r == []
  {
    var r := Filter(p.reviews, GivenBy(user));
    assert user.None? ==> r == [] by {
      if user.None? {
        FilterKeepsNone(p.reviews, GivenBy(user));
      }
    }
    r
  }

  /** "Reviews Received": this project's reviews about the user, in order. */
  function ReviewsReceived(p: Project, user: Option<User>): (r: seq<Review>)
    ensures forall rv :: rv in r <==> rv in p.reviews && user.Some? && rv.revieweeId == user.value.id
    ensures user.None? ==> r == []
  {
    var r := Filter(p.reviews, ReceivedBy(user));
    assert user.None? ==> r == [] by {
      if user.None? {
        FilterKeepsNone(p.reviews, ReceivedBy(user));
      }
    }
    r
  }

  /** Appending a review to a project appends it to whichever of the two lists it belongs in. */
  lemma ListsAfterAppend(p: Project, rv: Review, user: Option<User>)
    ensures ReviewsGiven(p.(reviews := p.reviews + [rv]), user)
         == ReviewsGiven(p, user) + (if user.Some? && rv.reviewerId == user.value.id then [rv] else [])
    ensures ReviewsReceived(p.(reviews := p.reviews + [rv]), user)
         == ReviewsReceived(p, user) + (if user.Some? && rv.revieweeId == user.value.id then [rv] else [])
  {
    FilterSnoc(p.reviews, rv, GivenBy(user));
    FilterSnoc(p.reviews, rv, ReceivedBy(user));
  }

  /**
   * After a successful submission reaches the store, the project's "Reviews Given" list
   * for the author, and its "Reviews Received" list for the chosen peer, each gain the new
   * review at the end.
   */
  lemma SubmissionShowsInLists(s: State, form: Form, user: User, i: nat, now: int, stamp: string, reviewee: User)
    requires i < |s.projects|
    requires HandleSubmit(form, user, s.projects[i].id).0.Some?
    requires reviewee.id == form.selectedPeer.value
    ensures var p := s.projects[i];
      var rv := NewReview(ReviewDraft(user.id, form.selectedPeer.value, form.rating, Trim(form.comment)), now, stamp);
      var q := Perform(s, HandleSubmit(form, user, p.id).0.value, now, stamp).projects[i];
      && ReviewsGiven(q, Some(user)) == ReviewsGiven(p, Some(user)) + [rv]
      && ReviewsReceived(q, Some(reviewee)) == ReviewsReceived(p, Some(reviewee)) + [rv]
  {
    var p := s.projects[i];
    var rv := NewReview(ReviewDraft(user.id, form.selectedPeer.value, form.rating, Trim(form.comment)), now, stamp);
    var r := Perform(s, HandleSubmit(form, user, p.id).0.value, now, stamp);
    assert r == Reduce(s, AddReview(p.id, rv));
    AddReviewAppends(s, p.id, rv);
    assert r.projects[i] == p.(reviews := p.reviews + [rv]);
    ListsAfterAppend(p, rv, Some(user));
    ListsAfterAppend(p, rv, Some(reviewee));
  }
}

=== FILE: routes.dfy ===
/**
 * Route access: `ProtectedRoute`, the role dispatch of `Dashboard`, and the route table
 * that says which role each path needs.
 */
module Routes {
  import opened Optional
  import opened Entities

  /** The application's paths, already matched by the router. */
  datatype Path =
    | LoginPath                        // "/login"
    | RootPath                         // "/"
    | DashboardPath                    // "/dashboard"
    | AdminPath                        // "/admin"
    | AnalyticsPath                    // "/analytics"
    | ReviewPath(projectId: string)    // "/review/:projectId"
    | ReviewsPath(projectId: string)   // "/reviews/:projectId"
    | OtherPath(path: string)          // "*"

  datatype Page = LoginPage | AdminDashboard | StudentDashboard | AnalyticsPage | ReviewPage

  /** A route either replaces the location (`<Navigate replace>`) or renders a page. */
  datatype Outcome = Redirect(to: Path) | Render(page: Page)

  /** `requiredRole && ...`: an absent or empty role string requires nothing. */
  predicate Requires(requiredRole: Option<string>) {
    requiredRole.Some? && requiredRole.value != ""
  }

  /** `ProtectedRoute`: guards `page` behind a logged-in user and, optionally, a role. */
  function ProtectedRoute(user: Option<User>, requiredRole: Option<string>, page: Page): (o: Outcome)
    ensures user.None? ==> o == Redirect(LoginPath)
    ensures user.Some? && Requires(requiredRole) && user.value.role != requiredRole.value ==> o == Redirect(DashboardPath)
    ensures o.Render? <==> user.Some? && (!Requires(requiredRole) || user.value.role == requiredRole.value)
    ensures o.Render? ==> o.page == page
  {
    if user.None? then Redirect(LoginPath)
    else if Requires(requiredRole) && user.value.role != requiredRole.value then Redirect(DashboardPath)
    else Render(page)
  }

  /** `Dashboard`: the login page for nobody, the admin view for teachers, the student view otherwise. */
  function Dashboard(user: Option<User>): (o: Outcome)
    ensures user.None? <==> o == Redirect(LoginPath)
    ensures o == Render(AdminDashboard) <==> user.Some? && user.value.role == TeacherRole
    ensures o == Render(StudentDashboard) <==> user.Some? && user.value.role != TeacherRole
  {
    if user.None? then Redirect(LoginPath)
    else if user.value.role == TeacherRole then Render(AdminDashboard)
    else Render(StudentDashboard)
  }

  /** Who may see a path's page: anyone logged out, anyone logged in, or one role. */
  datatype Access = LoggedOut | LoggedIn | Role(role: string)

  /** The access each page-rendering path demands. */
  function AccessFor(path: Path): Option<Access> {
    match path
    case LoginPath => Some(LoggedOut)
    case DashboardPath => Some(LoggedIn)
    case AdminPath => Some(Role(TeacherRole))
    case AnalyticsPath => Some(Role(TeacherRole))
    case ReviewPath(_) => Some(Role(StudentRole))
    case ReviewsPath(_) => Some(LoggedIn)
    case _ => None
  }

  /** The page each page-rendering path shows; `/dashboard` depends on the user's role. */
  function PageFor(path: Path, user: Option<User>): Option<Page> {
    match path
    case LoginPath => Some(LoginPage)
    case DashboardPath =>
      Some(if user.Some? && user.value.role == TeacherRole then AdminDashboard else StudentDashboard)
    case AdminPath => Some(AdminDashboard)
    case AnalyticsPath => Some(AnalyticsPage)
    case ReviewPath(_) => Some(ReviewPage)
    case ReviewsPath(_) => Some(ReviewPage)
    case _ => None
  }

  predicate Grants(a: Access, user: Option<User>) {
    match a
    case LoggedOut => user.None?
    case LoggedIn => user.Some?
    case Role(r) => user.Some? && user.value.role == r
  }

  /**
   * The `<Routes>` table. A path renders exactly when the user meets the path's access rule,
   * and then renders the path's page; every redirect goes to the login page or the dashboard.
   */
  function Route(path: Path, user: Option<User>): (o: Outcome)
    ensures o.Render? <==> AccessFor(path).Some? && Grants(AccessFor(path).value, user)
    ensures o.Redirect? ==> o.to == LoginPath || o.to == DashboardPath
    ensures o.Redirect? && o.to == LoginPath ==> user.None?
    ensures user.None? && path != LoginPath && !path.OtherPath? ==> o == Redirect(LoginPath)
    ensures o.Render? ==> PageFor(path, user) == Some(o.page)
    ensures path == RootPath ==> o == Redirect(if user.Some? then DashboardPath else LoginPath)
    ensures path.OtherPath? ==> o == Redirect(DashboardPath)
  {
    match path
    case LoginPath => if user.None? then Render(LoginPage) else Redirect(DashboardPath)
    case RootPath => Redirect(if user.Some? then DashboardPath else LoginPath)
    case DashboardPath => Dashboard(user)
    case AdminPath => ProtectedRoute(user, Some(TeacherRole), AdminDashboard)
    case AnalyticsPath => ProtectedRoute(user, Some(TeacherRole), AnalyticsPage)
    case ReviewPath(_) => ProtectedRoute(user, Some(StudentRole), ReviewPage)
    case ReviewsPath(_) => ProtectedRoute(user, None, ReviewPage)
    case OtherPath(_) => Redirect(DashboardPath)
  }

  /** Without a user, the login page is the only page any path renders. */
  lemma LoggedOutSeesOnlyLogin(path: Path)
    ensures Route(path, None).Render? <==> path == LoginPath
    ensures Route(path, None).Render? ==> Route(path, None).page == LoginPage
  {
  }

  /** Following redirects reaches a rendered page within two steps, for every path and user. */
  lemma RedirectsSettle(path: Path, user: Option<User>)
    ensures var o1 := Route(path, user);
      o1.Render? || (var o2 := Route(o1.to, user); o2.Render? || Route(o2.to, user).Render?)
  {
  }
}

=== FILE: scenario.dfy ===
/**
 * A worked scenario end to end: one project assigned to two students, and the first student
 * reviews the second twice, rated 4 and then 5.
 */
module Scenario {
  import opened Optional
  import opened Seqs
  import opened Entities
  import opened Store
  import opened Queries

  const Alice := User(1, "A", StudentRole)
  const Bob := User(2, "B", StudentRole)

  function Start(project: Project): State {
    State(Some(Alice), [project], [Alice, Bob], [], [], false, None)
  }

  function FirstDraft(): ReviewDraft { ReviewDraft(Alice.id, Bob.id, 4, "good") }
  function SecondDraft(): ReviewDraft { ReviewDraft(Alice.id, Bob.id, 5, "better") }

  /** The state after both reviews went through the store's own commands. */
  function AfterTwoReviews(project: Project, t1: int, s1: string, t2: int, s2: string): State {
    var after1 := Perform(Start(project), AddReviewCmd(project.id, FirstDraft()), t1, s1);
    Perform(after1, AddReviewCmd(project.id, SecondDraft()), t2, s2)
  }

  /** One ADD_REVIEW on a single-project list whose id matches. */
  lemma AddReviewToOnly(s: State, project: Project, d: ReviewDraft, t: int, stamp: string)
    requires s.projects == [project]
    ensures Perform(s, AddReviewCmd(project.id, d), t, stamp).projects
         == [project.(reviews := project.reviews + [NewReview(d, t, stamp)])]
  {
    var r := Perform(s, AddReviewCmd(project.id, d), t, stamp);
    assert r.projects[0] == AppendReview(NewReview(d, t, stamp))(project);
  }

  /** The store ends with the project holding exactly the two reviews, in submission order. */
  lemma StoreAfterTwoReviews(project: Project, t1: int, s1: string, t2: int, s2: string)
    requires project.reviews == []
    ensures AfterTwoReviews(project, t1, s1, t2, s2).projects
         == [project.(reviews := [NewReview(FirstDraft(), t1, s1), NewReview(SecondDraft(), t2, s2)])]
  {
    var r1 := NewReview(FirstDraft(), t1, s1);
    var r2 := NewReview(SecondDraft(), t2, s2);
    var after1 := Perform(Start(project), AddReviewCmd(project.id, FirstDraft()), t1, s1);
    AddReviewToOnly(Start(project), project, FirstDraft(), t1, s1);
    assert project.reviews + [r1] == [r1];
    var mid := project.(reviews := [r1]);
    AddReviewToOnly(after1, mid, SecondDraft(), t2, s2);
    assert [r1] + [r2] == [r1, r2];
  }

  /** What the queries report about a single project holding Bob's two reviews. */
  lemma QueriesAfterTwoReviews(p: Project, r1: Review, r2: Review)
    requires p.reviews == [r1, r2]
    requires r1.revieweeId == Bob.id && r1.rating == 4
    requires r2.revieweeId == Bob.id && r2.rating == 5
    ensures GetReviewsByUserId([p], Bob.id) == [Tagged(r1, p), Tagged(r2, p)]
    ensures AllReviews([p]) == [r1, r2]
    ensures Mean(Ratings(AllReviews([p]))) == 4.5
  {
    CollectOne(p, ReviewsOf, Involves(Bob.id));
    FilterKeepsAll([r1, r2], Involves(Bob.id));
    assert [p][1..] == [];
    assert p.reviews + [] == [r1, r2];
    assert Ratings([r1, r2]) == [4, 5];
    assert Sum([4, 5]) == 9 by {
      assert [4, 5][1..] == [5];
      assert [5][1..] == [];
    }
  }

  /**
   * `getReviewsByUserId` for Bob returns both reviews, tagged with the same project and in
   * submission order; the analytics count two reviews with an average of 4.5.
   */
  lemma TwoReviewsOfOnePeer(project: Project, t1: int, s1: string, t2: int, s2: string)
    requires project.assignedStudents == [Alice.id, Bob.id]
    requires project.reviews == []
    ensures
      var after := AfterTwoReviews(project, t1, s1, t2, s2);
      var forBob := GetReviewsByUserId(after.projects, Bob.id);
      && |forBob| == 2
      && forBob[0].project == forBob[1].project == after.projects[0]
      && forBob[0].item.rating == 4 && forBob[1].item.rating == 5
      && GetAnalytics(after).totalReviews == 2
      && GetAnalytics(after).averageRating == 4.5
  {
    var r1 := NewReview(FirstDraft(), t1, s1);
    var r2 := NewReview(SecondDraft(), t2, s2);
    var final := project.(reviews := [r1, r2]);
    StoreAfterTwoReviews(project, t1, s1, t2, s2);
    QueriesAfterTwoReviews(final, r1, r2);
    assert RoundToTenth(4.5) == 4.5 by {
      assert (4.5 * 10.0 + 0.5).Floor == 45;
    }
  }
}

=== FILE: seqs.dfy ===
/** Order-preserving list operations the source performs with Array.prototype methods. */
module Seqs {
  import opened Optional

  /** `s.filter(keep)`: the elements satisfying `keep`, in their original order. */
  function Filter<T(==,!new)>(s: seq<T>, keep: T -> bool): (r: seq<T>)
    ensures |r| <= |s|
    ensures forall x :: x in r <==> x in s && keep(x)
  {
    if s == [] then []
    else
      assert forall x :: x in s <==> x == s[0] || x in s[1..];
      if keep(s[0]) then [s[0]] + Filter(s[1..], keep) else Filter(s[1..], keep)
  }

  /** Filtering distributes over concatenation, so it keeps relative order. */
  lemma {:induction false} FilterConcat<T(!new)>(a: seq<T>, b: seq<T>, keep: T -> bool)
    ensures Filter(a + b, keep) == Filter(a, keep) + Filter(b, keep)
  {
    if a == [] {
      assert a + b == b;
    } else {
      assert (a + b)[0] == a[0];
      assert (a + b)[1..] == a[1..] + b;
      FilterConcat(a[1..], b, keep);
    }
  }

  /** A one-element list is kept or dropped whole. */
  lemma FilterSingleton<T(!new)>(x: T, keep: T -> bool)
    ensures Filter([x], keep) == if keep(x) then [x] else []
  {
    assert [x][1..] == [];
  }

  /** When every element is kept, filtering is the identity. */
  lemma {:induction false} FilterKeepsAll<T(!new)>(s: seq<T>, keep: T -> bool)
    requires forall x :: x in s ==> keep(x)
    ensures Filter(s, keep) == s
  {
    if s != [] {
      assert forall x :: x in s[1..] ==> x in s;
      FilterKeepsAll(s[1..], keep);
    }
  }

  /** When no element is kept, filtering leaves nothing. */
  lemma {:induction false} FilterKeepsNone<T(!new)>(s: seq<T>, keep: T -> bool)
    requires forall x :: x in s ==> !keep(x)
    ensures Filter(s, keep) == []
  {
    if s != [] {
      assert forall x :: x in s[1..] ==> x in s;
      FilterKeepsNone(s[1..], keep);
    }
  }

  /** Appending an element to the end of the input appends it, or nothing, to the result. */
  lemma FilterSnoc<T(!new)>(s: seq<T>, x: T, keep: T -> bool)
    ensures Filter(s + [x], keep) == Filter(s, keep) + (if keep(x) then [x] else [])
  {
    FilterConcat(s, [x], keep);
    FilterSingleton(x, keep);
  }

  /** The complement of a predicate. */
  function Not<T>(p: T -> bool): T -> bool {
    (x: T) => !p(x)
  }

  /** Every element is kept by exactly one of `p` and its complement. */
  lemma {:induction false} FilterSplitsLength<T(!new)>(s: seq<T>, p: T -> bool)
    ensures |Filter(s, p)| + |Filter(s, Not(p))| == |s|
  {
    if s != [] {
      FilterSplitsLength(s[1..], p);
    }
  }

  /** Two filters may be applied in either order. */
  lemma {:induction false} FilterCommutes<T(!new)>(s: seq<T>, p: T -> bool, q: T -> bool)
    ensures Filter(Filter(s, p), q) == Filter(Filter(s, q), p)
  {
    if s != [] {
      FilterCommutes(s[1..], p, q);
    }
  }

  /** `s.find(p)`: the first element satisfying `p`, or absent. */
  function Find<T(==,!new)>(s: seq<T>, p: T -> bool): (r: Option<T>)
    ensures r.None? <==> forall x :: x in s ==> !p(x)
    ensures r.Some? ==> r.value in s && p(r.value)
    ensures r.Some? ==> exists i :: 0 <= i < |s| && s[i] == r.value && forall j :: 0 <= j < i ==> !p(s[j])
  {
    if s == [] then None
    else if p(s[0]) then Some(s[0])
    else
      var r := Find(s[1..], p);
      assert forall x :: x in s <==> x == s[0] || x in s[1..];
      assert r.Some? ==> exists i :: 1 <= i < |s| && s[i] == r.value && forall j :: 0 <= j < i ==> !p(s[j]) by {
        if r.Some? {
          var i :| 0 <= i < |s[1..]| && s[1..][i] == r.value && forall j :: 0 <= j < i ==> !p(s[1..][j]);
          assert s[i + 1] == r.value;
          assert forall j :: 1 <= j < i + 1 ==> s[j] == s[1..][j - 1];
        }
      }
      r
  }

  /** `find` over a concatenation looks in the second part only when the first has no match. */
  lemma {:induction false} FindConcat<T(!new)>(a: seq<T>, b: seq<T>, p: T -> bool)
    ensures Find(a + b, p) == if Find(a, p).Some? then Find(a, p) else Find(b, p)
  {
    if a == [] {
      assert a + b == b;
    } else {
      assert (a + b)[0] == a[0];
      assert (a + b)[1..] == a[1..] + b;
      FindConcat(a[1..], b, p);
    }
  }

  /** The sum of a list of integers (`reduce((sum, x) => sum + x, 0)`). */
  function Sum(xs: seq<int>): int {
    if xs == [] then 0 else xs[0] + Sum(xs[1..])
  }

  lemma {:induction false} SumConcat(a: seq<int>, b: seq<int>)
    ensures Sum(a + b) == Sum(a) + Sum(b)
  {
    if a == [] {
      assert a + b == b;
    } else {
      assert (a + b)[1..] == a[1..] + b;
      SumConcat(a[1..], b);
    }
  }

  /** Bounds on each element bound the sum. */
  lemma {:induction false} SumBounds(xs: seq<int>, lo: int, hi: int)
    requires forall i :: 0 <= i < |xs| ==> lo <= xs[i] <= hi
    ensures lo * |xs| <= Sum(xs) <= hi * |xs|
  {
    if xs != [] {
      SumBounds(xs[1..], lo, hi);
    }
  }

  /** No value occurs twice. */
  predicate NoDuplicates<T(==)>(s: seq<T>) {
    forall i, j :: 0 <= i < j < |s| ==> s[i] != s[j]
  }

  /** The first `n` elements, or all of them when there are fewer (`s.slice(0, n)`). */
  function Take<T(==)>(s: seq<T>, n: nat): (r: seq<T>)
    ensures |r| == if |s| < n then |s| else n
    ensures r <= s
    ensures forall x :: x in r ==> x in s
  {
    if |s| <= n then s
    else
      assert forall x :: x in s[..n] ==> x in s by {
        forall x | x in s[..n] ensures x in s {
          var i :| 0 <= i < n && s[..n][i] == x;
          assert s[i] == x;
        }
      }
      s[..n]
  }
}

=== FILE: stable_sort.dfy ===
/**
 * `Array.prototype.sort` with a descending comparator `(a, b) => key(b) - key(a)`.
 * The language guarantees that this sort is stable, so elements with equal keys keep
 * their input order; that is what `SortStable` states.
 */
module StableSort {
  import opened Seqs

  /** Non-increasing by `key`. */
  predicate SortedDesc<T>(s: seq<T>, key: T -> real) {
    forall i, j :: 0 <= i < j < |s| ==> key(s[i]) >= key(s[j])
  }

  /** The elements whose key is exactly `k`. */
  function KeyIs<T>(key: T -> real, k: real): T -> bool {
    x => key(x) == k
  }

  /** Puts `x` in front of the first element whose key is not larger than its own. */
  function Insert<T(!new)>(x: T, s: seq<T>, key: T -> real): (r: seq<T>)
    requires SortedDesc(s, key)
    ensures SortedDesc(r, key)
    ensures forall y :: y in r <==> y == x || y in s
    ensures multiset(r) == multiset(s) + multiset{x}
  {
    if s == [] then [x]
    else if key(x) >= key(s[0]) then [x] + s
    else
      var t := Insert(x, s[1..], key);
      assert s == [s[0]] + s[1..];
      assert forall i :: 0 <= i < |t| ==> key(s[0]) >= key(t[i]) by {
        forall i | 0 <= i < |t| ensures key(s[0]) >= key(t[i]) {
          assert t[i] in t;
        }
      }
      [s[0]] + t
  }

  /** Insertion sort, taking elements front to back. */
  function Sort<T(!new)>(s: seq<T>, key: T -> real): (r: seq<T>)
    ensures SortedDesc(r, key)
    ensures multiset(r) == multiset(s)
    ensures forall y :: y in r <==> y in s
    ensures |r| == |s|
  {
    if s == [] then []
    else
      assert s == [s[0]] + s[1..];
      assert forall y :: y in s <==> y == s[0] || y in s[1..];
      Insert(s[0], Sort(s[1..], key), key)
  }

  /** Two neighbours with different keys can change places without reordering any one key. */
  lemma SwapDistinctKeys<T(!new)>(a: T, b: T, rest: seq<T>, key: T -> real, k: real)
    requires key(a) != key(b)
    ensures Filter([a] + ([b] + rest), KeyIs(key, k)) == Filter([b] + ([a] + rest), KeyIs(key, k))
  {
    var p := KeyIs(key, k);
    FilterConcat([a], [b] + rest, p);
    FilterConcat([b], rest, p);
    FilterConcat([b], [a] + rest, p);
    FilterConcat([a], rest, p);
    FilterSingleton(a, p);
    FilterSingleton(b, p);
  }

  /** One step of the stability proof: `a` moves behind an element `x` of a different key. */
  lemma InsertStep<T(!new)>(a: T, x: T, u: seq<T>, t: seq<T>, key: T -> real, k: real)
    requires key(a) != key(x)
    requires Filter(t, KeyIs(key, k)) == Filter([x] + u, KeyIs(key, k))
    ensures Filter([a] + t, KeyIs(key, k)) == Filter([x] + ([a] + u), KeyIs(key, k))
  {
    var p := KeyIs(key, k);
    FilterConcat([a], t, p);
    FilterConcat([a], [x] + u, p);
    SwapDistinctKeys(a, x, u, key, k);
  }

  /** Inserting `x` into a sorted list does not reorder the elements of any one key. */
  lemma {:induction false} InsertStable<T(!new)>(x: T, s: seq<T>, key: T -> real, k: real)
    requires SortedDesc(s, key)
    ensures Filter(Insert(x, s, key), KeyIs(key, k)) == Filter([x] + s, KeyIs(key, k))
  {
    if s != [] && key(x) < key(s[0]) {
      InsertStable(x, s[1..], key, k);
      InsertStep(s[0], x, s[1..], Insert(x, s[1..], key), key, k);
      assert [s[0]] + s[1..] == s;
    }
  }

  /** Stability: for every key, the elements with that key appear in input order. */
  lemma {:induction false} SortStable<T(!new)>(s: seq<T>, key: T -> real, k: real)
    ensures Filter(Sort(s, key), KeyIs(key, k)) == Filter(s, KeyIs(key, k))
  {
    if s != [] {
      var p := KeyIs(key, k);
      SortStable(s[1..], key, k);
      InsertStable(s[0], Sort(s[1..], key), key, k);
      FilterConcat([s[0]], Sort(s[1..], key), p);
      FilterConcat([s[0]], s[1..], p);
      assert [s[0]] + s[1..] == s;
    }
  }

  /** Cutting a sorted list keeps an element, or keeps only elements ranked at least as high. */
  lemma TakeOfSorted<T>(s: seq<T>, key: T -> real, n: nat, x: T)
    requires SortedDesc(s, key) && x in s
    ensures x in Take(s, n) || (|Take(s, n)| == n && forall y :: y in Take(s, n) ==> key(y) >= key(x))
  {
    var t := Take(s, n);
    var i :| 0 <= i < |s| && s[i] == x;
    if i < |t| {
      assert t[i] == x;
    } else {
      forall y | y in t ensures key(y) >= key(x) {
        var j :| 0 <= j < |t| && t[j] == y;
        assert s[j] == y;
      }
    }
  }
}

=== FILE: store.dfy ===
/**
 * The application store: a total reducer `State x Action -> State` and the action
 * creators that build its payloads. Ids and timestamps that the source takes from the
 * clock are parameters (`now`, `stamp`).
 */
module Store {
  import opened Optional
  import opened Seqs
  import opened Entities

  datatype State = State(
    user: Option<User>,
    projects: seq<Project>,
    users: seq<User>,
    reviews: seq<Review>,
    submissions: seq<Submission>,
    isLoading: bool,
    error: Option<string>)

  /**
   * The action kinds. `SetUsers` and `UpdateReview` are declared kinds the reducer has no
   * case for; `Unrecognised` stands for any other tag.
   */
  datatype Action =
    | SetUser(user: Option<User>)
    | SetProjects(projects: seq<Project>)
    | SetUsers(users: seq<User>)
    | AddProject(project: Project)
    | UpdateProject(project: Project)
    | DeleteProject(projectId: int)
    | AddReview(projectId: int, review: Review)
    | UpdateReview(projectId: int, review: Review)
    | AddSubmission(projectId: int, submission: Submission)
    | SetLoading(loading: bool)
    | SetError(error: Option<string>)
    | ClearError
    | Unrecognised(tag: string)

  /** `projects.map(p => p.id === id ? f(p) : p)`. */
  function UpdateWhere(ps: seq<Project>, id: int, f: Project -> Project): (r: seq<Project>)
    ensures |r| == |ps|
    ensures forall i :: 0 <= i < |ps| && ps[i].id == id ==> r[i] == f(ps[i])
    ensures forall i :: 0 <= i < |ps| && ps[i].id != id ==> r[i] == ps[i]
  {
    if ps == [] then []
    else [if ps[0].id == id then f(ps[0]) else ps[0]] + UpdateWhere(ps[1..], id, f)
  }

  /** The UPDATE_PROJECT rewrite: whatever matched becomes the payload. */
  function ReplaceWith(p: Project): Project -> Project {
    (_: Project) => p
  }

  /** The ADD_REVIEW rewrite: the review goes to the end of the project's list. */
  function AppendReview(rv: Review): Project -> Project {
    (q: Project) => q.(reviews := q.reviews + [rv])
  }

  /** The ADD_SUBMISSION rewrite. */
  function AppendSubmission(sub: Submission): Project -> Project {
    (q: Project) => q.(submissions := q.submissions + [sub])
  }

  function Reduce(s: State, a: Action): (r: State)
    // Collections the reducer never rewrites.
    ensures r.users == s.users && r.reviews == s.reviews && r.submissions == s.submissions
    // Each status field moves only under its own action.
    ensures !a.SetUser? ==> r.user == s.user
    ensures !a.SetLoading? ==> r.isLoading == s.isLoading
    ensures !(a.SetError? || a.ClearError?) ==> r.error == s.error
    ensures a.ClearError? ==> r.error.None?
    // Only the project actions touch the project list, and none of them shrinks it except delete.
    ensures a.SetUser? || a.SetLoading? || a.SetError? || a.ClearError? || a.SetUsers? || a.UpdateReview? || a.Unrecognised?
      ==> r.projects == s.projects
    ensures a.UpdateProject? || a.AddReview? || a.AddSubmission? ==> |r.projects| == |s.projects|
    ensures a.DeleteProject? ==> |r.projects| <= |s.projects|
    ensures a.AddProject? ==> |r.projects| == |s.projects| + 1
    // The whole-field actions change their own field and nothing else; unknown kinds change nothing.
    ensures a.SetUser? ==> r == s.(user := a.user)
    ensures a.SetProjects? ==> r == s.(projects := a.projects)
    ensures a.SetLoading? ==> r == s.(isLoading := a.loading)
    ensures a.SetError? ==> r == s.(error := a.error)
    ensures a.ClearError? ==> r == s.(error := None)
    ensures a.SetUsers? || a.UpdateReview? || a.Unrecognised? ==> r == s
  {
    match a
    case SetUser(u) => s.(user := u)
    case SetProjects(ps) => s.(projects := ps)
    case AddProject(p) => s.(projects := s.projects + [p])
    case UpdateProject(p) => s.(projects := UpdateWhere(s.projects, p.id, ReplaceWith(p)))
    case DeleteProject(id) => s.(projects := Filter(s.projects, Not(HasId(id))))
    case AddReview(pid, rv) => s.(projects := UpdateWhere(s.projects, pid, AppendReview(rv)))
    case AddSubmission(pid, sub) => s.(projects := UpdateWhere(s.projects, pid, AppendSubmission(sub)))
    case SetLoading(b) => s.(isLoading := b)
    case SetError(e) => s.(error := e)
    case ClearError => s.(error := None)
    case SetUsers(_) => s
    case UpdateReview(_, _) => s
    case Unrecognised(_) => s
  }

  // ---------------------------------------------------------------------------
  // Action creators

  /** The fields a student fills in for a review; id and timestamp are added by `NewReview`. */
  datatype ReviewDraft = ReviewDraft(reviewerId: int, revieweeId: int, rating: int, comment: string)

  /** The fields of a submission; id and timestamp are added by `NewSubmission`. */
  datatype SubmissionDraft = SubmissionDraft(studentId: int, content: string)

  /**
   * `addProject`: the caller's fields with a fresh id and empty review and submission
   * lists, whatever id or lists the caller supplied.
   */
  function NewProject(fields: Project, now: int): (p: Project)
    ensures p.id == now && p.reviews == [] && p.submissions == []
    ensures p == fields.(id := p.id, reviews := p.reviews, submissions := p.submissions)
  {
    fields.(id := now, reviews := [], submissions := [])
  }

  function NewReview(d: ReviewDraft, now: int, stamp: string): (rv: Review)
    ensures rv.id == now && rv.submittedAt == stamp
    ensures rv.reviewerId == d.reviewerId && rv.revieweeId == d.revieweeId
    ensures rv.rating == d.rating && rv.comment == d.comment
  {
    Review(now, d.reviewerId, d.revieweeId, d.rating, d.comment, stamp)
  }

  function NewSubmission(d: SubmissionDraft, now: int, stamp: string): (sub: Submission)
    ensures sub.id == now && sub.submittedAt == stamp
    ensures sub.studentId == d.studentId && sub.content == d.content
  {
    Submission(now, d.studentId, d.content, stamp)
  }

  /** The store's public operations, before they become actions. */
  datatype Command =
    | Login(user: User)
    | Logout
    | AddProjectCmd(fields: Project)
    | UpdateProjectCmd(project: Project)
    | DeleteProjectCmd(projectId: int)
    | AddReviewCmd(projectId: int, review: ReviewDraft)
    | AddSubmissionCmd(projectId: int, submission: SubmissionDraft)
    | SetLoadingCmd(loading: bool)
    | SetErrorCmd(error: Option<string>)
    | ClearErrorCmd

  /** The action each operation dispatches; `now` and `stamp` stand for the clock readings. */
  function ToAction(c: Command, now: int, stamp: string): (a: Action)
    ensures c.Login? ==> a == SetUser(Some(c.user))
    ensures c.Logout? ==> a == SetUser(None)
    ensures c.AddProjectCmd? ==> a == AddProject(NewProject(c.fields, now))
    ensures c.UpdateProjectCmd? ==> a == UpdateProject(c.project)
    ensures c.DeleteProjectCmd? ==> a == DeleteProject(c.projectId)
    ensures c.AddReviewCmd? ==> a == AddReview(c.projectId, NewReview(c.review, now, stamp))
    ensures c.AddSubmissionCmd? ==> a == AddSubmission(c.projectId, NewSubmission(c.submission, now, stamp))
    ensures c.SetLoadingCmd? ==> a == SetLoading(c.loading)
    ensures c.SetErrorCmd? ==> a == SetError(c.error)
    ensures c.ClearErrorCmd? ==> a == ClearError
    // The creating operations take their id, and timestamp, from the clock.
    ensures c.AddProjectCmd? ==> a.project.id == now && a.project.reviews == [] && a.project.submissions == []
    ensures c.AddReviewCmd? ==> a.review.id == now && a.review.submittedAt == stamp
    ensures c.AddSubmissionCmd? ==> a.submission.id == now && a.submission.submittedAt == stamp
  {
    match c
    case Login(u) => SetUser(Some(u))
    case Logout => SetUser(None)
    case AddProjectCmd(f) => AddProject(NewProject(f, now))
    case UpdateProjectCmd(p) => UpdateProject(p)
    case DeleteProjectCmd(id) => DeleteProject(id)
    case AddReviewCmd(pid, d) => AddReview(pid, NewReview(d, now, stamp))
    case AddSubmissionCmd(pid, d) => AddSubmission(pid, NewSubmission(d, now, stamp))
    case SetLoadingCmd(b) => SetLoading(b)
    case SetErrorCmd(e) => SetError(e)
    case ClearErrorCmd => ClearError
  }

  /** Runs one store operation. */
  function Perform(s: State, c: Command, now: int, stamp: string): State {
    Reduce(s, ToAction(c, now, stamp))
  }

  // ---------------------------------------------------------------------------
  // Properties of the project actions

  /** ADD_PROJECT appends: earlier projects stay in place and the payload is last. */
  lemma AddProjectAppends(s: State, p: Project)
    ensures var r := Reduce(s, AddProject(p));
      && |r.projects| == |s.projects| + 1
      && r.projects[..|s.projects|] == s.projects
      && r.projects[|s.projects|] == p
  {
  }

  /** `addProject` always stores a project with no reviews and no submissions, at the end. */
  lemma {:induction false} AddProjectStartsEmpty(s: State, fields: Project, now: int, stamp: string)
    ensures var r := Perform(s, AddProjectCmd(fields), now, stamp);
      && |r.projects| == |s.projects| + 1
      && r.projects[..|s.projects|] == s.projects
      && r.projects[|s.projects|].reviews == []
      && r.projects[|s.projects|].submissions == []
      && r.projects[|s.projects|].id == now
      && r.projects[|s.projects|].title == fields.title
      && r.projects[|s.projects|].status == fields.status
      && r.projects[|s.projects|].assignedStudents == fields.assignedStudents
  {
    AddProjectAppends(s, NewProject(fields, now));
  }

  /** UPDATE_PROJECT keeps length and order, replaces every project with the payload's id, and nothing else. */
  lemma UpdateProjectReplaces(s: State, p: Project)
    ensures var r := Reduce(s, UpdateProject(p));
      && |r.projects| == |s.projects|
      && (forall i :: 0 <= i < |s.projects| && s.projects[i].id == p.id ==> r.projects[i] == p)
      && (forall i :: 0 <= i < |s.projects| && s.projects[i].id != p.id ==> r.projects[i] == s.projects[i])
  {
  }

  /** A rewrite of an id nobody has changes nothing. */
  lemma {:induction false} UpdateWhereUnknownId(ps: seq<Project>, id: int, f: Project -> Project)
    requires forall q :: q in ps ==> q.id != id
    ensures UpdateWhere(ps, id, f) == ps
  {
    var r := UpdateWhere(ps, id, f);
    assert forall i :: 0 <= i < |ps| ==> ps[i] in ps;
    assert forall i :: 0 <= i < |ps| ==> r[i] == ps[i];
  }

  /** With exactly one project carrying the id, the update rewrites that project alone. */
  lemma UpdateWhereOnly(a: seq<Project>, p: Project, b: seq<Project>, f: Project -> Project)
    requires forall q :: q in a + b ==> q.id != p.id
    ensures UpdateWhere(a + [p] + b, p.id, f) == a + [f(p)] + b
  {
    var ps := a + [p] + b;
    var r := UpdateWhere(ps, p.id, f);
    forall i | 0 <= i < |ps| ensures r[i] == (a + [f(p)] + b)[i] {
      if i < |a| {
        assert ps[i] == a[i] && a[i] in a + b;
      } else if i > |a| {
        assert ps[i] == b[i - |a| - 1] && b[i - |a| - 1] in a + b;
      }
    }
  }

  /** UPDATE_PROJECT with an id no project has is a no-op. */
  lemma UpdateUnknownIsNoop(s: State, p: Project)
    requires forall q :: q in s.projects ==> q.id != p.id
    ensures Reduce(s, UpdateProject(p)) == s
  {
    UpdateWhereUnknownId(s.projects, p.id, ReplaceWith(p));
  }

  /** Updating twice with the same payload is the same as updating once. */
  lemma {:induction false} UpdateIdempotent(s: State, p: Project)
    ensures Reduce(Reduce(s, UpdateProject(p)), UpdateProject(p)) == Reduce(s, UpdateProject(p))
  {
    var once := Reduce(s, UpdateProject(p)).projects;
    var twice := Reduce(Reduce(s, UpdateProject(p)), UpdateProject(p)).projects;
    assert |twice| == |once|;
    forall i | 0 <= i < |once|
      ensures twice[i] == once[i]
    {
      if s.projects[i].id == p.id {
        assert once[i] == p;
      } else {
        assert once[i] == s.projects[i];
      }
    }
  }

  /** DELETE_PROJECT keeps exactly the projects with another id, unchanged and in order. */
  lemma {:induction false} DeleteProjectRemoves(s: State, id: int)
    ensures var r := Reduce(s, DeleteProject(id));
      && (forall q :: q in r.projects <==> q in s.projects && q.id != id)
      && |r.projects| + |Filter(s.projects, HasId(id))| == |s.projects|
      && (forall a, b :: s.projects == a + b ==> r.projects == Filter(a, Not(HasId(id))) + Filter(b, Not(HasId(id))))
  {
    var r := Reduce(s, DeleteProject(id));
    FilterSplitsLength(s.projects, HasId(id));
    forall a, b | s.projects == a + b
      ensures r.projects == Filter(a, Not(HasId(id))) + Filter(b, Not(HasId(id)))
    {
      FilterConcat(a, b, Not(HasId(id)));
    }
  }

  /** DELETE_PROJECT with an id no project has is a no-op. */
  lemma DeleteUnknownIsNoop(s: State, id: int)
    requires forall q :: q in s.projects ==> q.id != id
    ensures Reduce(s, DeleteProject(id)) == s
  {
    FilterKeepsAll(s.projects, Not(HasId(id)));
  }

  /**
   * ADD_REVIEW appends the review to the end of every project with the given id; earlier
   * reviews and everything else about those projects, and all other projects, are unchanged.
   */
  lemma AddReviewAppends(s: State, pid: int, rv: Review)
    ensures var r := Reduce(s, AddReview(pid, rv));
      && |r.projects| == |s.projects|
      && (forall i :: 0 <= i < |s.projects| && s.projects[i].id == pid ==>
            && |r.projects[i].reviews| == |s.projects[i].reviews| + 1
            && r.projects[i].reviews[..|s.projects[i].reviews|] == s.projects[i].reviews
            && r.projects[i].reviews[|s.projects[i].reviews|] == rv
            && r.projects[i] == s.projects[i].(reviews := r.projects[i].reviews))
      && (forall i :: 0 <= i < |s.projects| && s.projects[i].id != pid ==> r.projects[i] == s.projects[i])
  {
  }

  /** ADD_REVIEW for a project id nobody has leaves the projects unchanged. */
  lemma AddReviewUnknownIsNoop(s: State, pid: int, rv: Review)
    requires forall q :: q in s.projects ==> q.id != pid
    ensures Reduce(s, AddReview(pid, rv)) == s
  {
    UpdateWhereUnknownId(s.projects, pid, AppendReview(rv));
  }

  /** ADD_SUBMISSION is the same append, on the submissions list. */
  lemma AddSubmissionAppends(s: State, pid: int, sub: Submission)
    ensures var r := Reduce(s, AddSubmission(pid, sub));
      && |r.projects| == |s.projects|
      && (forall i :: 0 <= i < |s.projects| && s.projects[i].id == pid ==>
            && |r.projects[i].submissions| == |s.projects[i].submissions| + 1
            && r.projects[i].submissions[..|s.projects[i].submissions|] == s.projects[i].submissions
            && r.projects[i].submissions[|s.projects[i].submissions|] == sub
            && r.projects[i] == s.projects[i].(submissions := r.projects[i].submissions))
      && (forall i :: 0 <= i < |s.projects| && s.projects[i].id != pid ==> r.projects[i] == s.projects[i])
  {
  }

  lemma AddSubmissionUnknownIsNoop(s: State, pid: int, sub: Submission)
    requires forall q :: q in s.projects ==> q.id != pid
    ensures Reduce(s, AddSubmission(pid, sub)) == s
  {
    UpdateWhereUnknownId(s.projects, pid, AppendSubmission(sub));
  }
}

=== FILE: text.dfy ===
/**
 * `String.prototype.trim` over characters. A Dafny `char` is a Unicode scalar value, so a
 * string holding a lone UTF-16 surrogate cannot be represented; `trim` never removes one anyway.
 */
module Text {

  /** The white-space and line-terminator characters `trim` removes. */
  predicate IsWhitespace(c: char) {
    || c == '\U{0009}' || c == '\U{000A}' || c == '\U{000B}' || c == '\U{000C}' || c == '\U{000D}'
    || c == '\U{0020}' || c == '\U{00A0}' || c == '\U{1680}' || ('\U{2000}' <= c <= '\U{200A}')
    || c == '\U{2028}' || c == '\U{2029}' || c == '\U{202F}' || c == '\U{205F}' || c == '\U{3000}'
    || c == '\U{FEFF}'
  }

  predicate AllWhitespace(s: string) {
    WhitespaceBetween(s, 0, |s|)
  }

  /** Every character of `s` from index `a` up to, not including, `b` is white space. */
  predicate WhitespaceBetween(s: string, a: int, b: int) {
    forall i :: a <= i < b && 0 <= i < |s| ==> IsWhitespace(s[i])
  }

  /** The index of the first non-white-space character at or after `k`, or `|s|`. */
  function SkipForward(s: string, k: nat): (r: nat)
    requires k <= |s|
    ensures k <= r <= |s|
    ensures WhitespaceBetween(s, k, r)
    ensures r == |s| || !IsWhitespace(s[r])
    decreases |s| - k
  {
    if k < |s| && IsWhitespace(s[k]) then SkipForward(s, k + 1) else k
  }

  /** The index just past the last non-white-space character before `k`, but not below `lo`. */
  function SkipBackward(s: string, lo: nat, k: nat): (r: nat)
    requires lo <= k <= |s|
    ensures lo <= r <= k
    ensures WhitespaceBetween(s, r, k)
    ensures r == lo || !IsWhitespace(s[r - 1])
    decreases k
  {
    if lo < k && IsWhitespace(s[k - 1]) then SkipBackward(s, lo, k - 1) else k
  }

  /** `s.trim()`. */
  function Trim(s: string): (r: string)
    ensures |r| <= |s|
    ensures r == [] || (!IsWhitespace(r[0]) && !IsWhitespace(r[|r| - 1]))
    ensures r == [] <==> AllWhitespace(s)
    ensures exists pre, post :: s == pre + r + post && AllWhitespace(pre) && AllWhitespace(post)
  {
    var i := SkipForward(s, 0);
    var j := SkipBackward(s, i, |s|);
    TrimSlice(s, i, j);
    var r := s[i..j];
    assert s == s[..i] + r + s[j..];
    r
  }

  /** The slice between a white-space prefix and a white-space suffix meets `Trim`'s contract. */
  lemma TrimSlice(s: string, i: nat, j: nat)
    requires i <= j <= |s|
    requires WhitespaceBetween(s, 0, i) && WhitespaceBetween(s, j, |s|)
    requires i == j || (!IsWhitespace(s[i]) && !IsWhitespace(s[j - 1]))
    ensures s == s[..i] + s[i..j] + s[j..] && AllWhitespace(s[..i]) && AllWhitespace(s[j..])
    ensures i == j <==> AllWhitespace(s)
  {
    SliceWhitespace(s, 0, i);
    SliceWhitespace(s, j, |s|);
    assert s[..i] == s[0..i] && s[j..] == s[j..|s|];
    if i == j {
      assert WhitespaceBetween(s, 0, |s|);
    }
  }

  lemma SliceWhitespace(s: string, a: nat, b: nat)
    requires a <= b <= |s| && WhitespaceBetween(s, a, b)
    ensures AllWhitespace(s[a..b])
  {
    forall n | 0 <= n < b - a ensures IsWhitespace(s[a..b][n]) {
      assert s[a..b][n] == s[a + n];
    }
  }

  /** Trimming twice is trimming once. */
  lemma TrimIdempotent(s: string)
    ensures Trim(Trim(s)) == Trim(s)
  {
    var t := Trim(s);
    if t != [] {
      assert SkipForward(t, 0) == 0;
      assert SkipBackward(t, 0, |t|) == |t|;
      assert t[0..|t|] == t;
    }
  }
}
